=== FILE: README.md ===
# Paymaster co-signing model

This project is a Dafny model of the off-chain half of an ERC-4337 verifying paymaster. It covers two pieces.

- **`aa-utils.ts`** packs a user operation, hashes it with its signing context and signs the hash.
  - `packUserOp` ABI-encodes the operation's eleven fields. It puts two dummy constants in place of `paymasterAndData` and `signature`. It then cuts the encoding 321 "bytes" before the end of its hex spelling. That removes exactly the two dummy tails and keeps their now-dangling offsets.
  - `getUserOpHash` ABI-encodes the packed bytes with the chain id, paymaster address, sender nonce and the `uint48` validity window, then applies Keccak-256.
  - `signUserOp` frames the hash as an EIP-191 personal message (version 0x45, "Ethereum Signed Message"), signs it with ECDSA, and returns the operation with only its `signature` replaced.
- **`index.ts`**: `AllowlistPaymaster.getPaymasterAndData`.
  - It returns `""` for senders not on the allow-list.
  - For listed senders it is meant to return `defaultAbiCoder.encode` of the tuple `(paymaster address, validUntil, validAfter, signature)`. That tuple layout is not the back-to-back layout of `DUMMY_PND` in `aa-utils.ts`.

The modules follow the program's layers:

| module | models |
|---|---|
| `Words` | bytes, 32-byte big-endian words, byte-sequence helpers |
| `Hex` | `0x`-prefixed hex strings |
| `Js` | the JavaScript values handed to the libraries, and the errors they throw (`Result`); `indexOf` |
| `Ethers` | the ethers v5 utilities on the path: `BigNumber.from`, `arrayify`, `getAddress` with its EIP-55 checksum check, `hexlify`, `hexDataSlice`, `keccak256` |
| `Abi` | `defaultAbiCoder.encode` for `address`, `uint48`, `uint256` and `bytes`, with head/tail layout; plus, as its partner, what Solidity's `abi.decode` of the same types reads back |
| `Primitives` | Keccak-256, secp256k1 `ecsign`, key validity and `toRpcSig`, as uninterpreted function-valued parameters |
| `AaUtils` | `aa-utils.ts` |
| `Paymaster` | `index.ts`'s `getPaymasterAndData`, as written and corrected |

Library calls that throw are modelled as `Err` results, carrying an error kind named after the check that fails. Where the model states a property, it is proved for every value of the uninterpreted primitives.

`getUserOpHash` is one Keccak-256 over `abi.encode(bytes packed, chainId, paymasterAddress, senderNonce, validUntil, validAfter)`.

## Model

| member | source | states |
|---|---|---|
| `AaUtils.DummiesAccepted` | aa-utils.ts:21-27 | both dummy constants are hex strings that the coder accepts as `bytes`, of 149 and 65 bytes |
| `AaUtils.PackArgs` | aa-utils.ts:51-63 | the encoder receives eleven values, and the last two are always the two dummies, whatever the operation holds |
| `AaUtils.PackedValuesShape` | aa-utils.ts:37-64 | the encoder accepts the packed tuple exactly when it accepts the operation's nine fields; then the dummies sit as `bytes` in places 9 and 10 |
| `AaUtils.TruncationArithmetic` | aa-utils.ts:68-72 | half the hex length minus 321 is the byte length minus 320; the dummy tails are 32+160 and 32+96 bytes, which together make 320 |
| `AaUtils.PackedTails` | aa-utils.ts:37-64 | the tails of the full encoding are those of initCode, callData and the two dummies, in that order; the dummy tails are 192 and 128 bytes |
| `AaUtils.TruncatedLayout` | aa-utils.ts:66-74 | the truncated encoding is 352 + tail(initCode) + tail(callData) bytes long; the full encoding is the truncated one followed by exactly the two dummy tails |
| `AaUtils.TruncatedSlot` | aa-utils.ts:66-74 | all eleven head slots survive the truncation unchanged |
| `AaUtils.TruncatedDummyOffsets` | aa-utils.ts:66-72 | the kept offsets of paymasterAndData and signature point at the end of the truncated encoding and 192 bytes past it |
| `AaUtils.TruncatedDummiesUndecodable` | aa-utils.ts:66-72 | so neither dummy field decodes from the truncated encoding |
| `AaUtils.TruncatedDecodesBytes` | aa-utils.ts:66-74 | initCode and callData still decode from the truncated encoding to the values encoded |
| `AaUtils.TruncatedDecodes` | aa-utils.ts:36-75 | the decoder partner: the nine operation fields decode from the packed bytes to the values the coder accepted, and the two dummy fields do not decode |
| `AaUtils.PackUserOp` | aa-utils.ts:36-75 | `packUserOp` succeeds exactly when the coder accepts the operation's nine fields, and then returns a hex string |
| `AaUtils.PackUserOpTruncates` | aa-utils.ts:36-75 | when the nine fields are accepted, `packUserOp` returns the hex spelling of the full encoding minus its last 320 bytes |
| `AaUtils.PackUserOpRejects` | aa-utils.ts:37-64 | otherwise `packUserOp` throws the error of the first field (among the nine) the coder rejects |
| `AaUtils.PackIgnoresPaymasterFields` | aa-utils.ts:61-62 | `packUserOp` gives the same result whatever the operation's own paymasterAndData and signature are |
| `AaUtils.HashLayout` | aa-utils.ts:89-99 | the digest tuple encodes to: offset 192, then the chainId, paymaster, senderNonce, validUntil and validAfter words, then the packed bytes' length word, the bytes and the zero padding |
| `AaUtils.HashEncoding` | aa-utils.ts:89-99 | with the signing context accepted, the encoder returns the hex spelling of that preimage |
| `AaUtils.GetUserOpHash` | aa-utils.ts:80-101 | a successful result is a 66-character hex string that `arrayify` maps back to 32 bytes spelling it |
| `AaUtils.GetUserOpHashDigest` | aa-utils.ts:80-101 | with operation and context accepted, the hash is Keccak-256 of the preimage of the truncated packed operation and the coerced context |
| `AaUtils.HashArgsRejected` | aa-utils.ts:89-99 | a chain id, nonce or validity bound outside its `uint256`/`uint48` range, or an address `getAddress` refuses, makes the encoding throw |
| `AaUtils.GetUserOpHashRejectsContext` | aa-utils.ts:88-100 | so does `getUserOpHash`, for an operation the coder accepts |
| `AaUtils.GetUserOpHashRejects` | aa-utils.ts:88 | an operation the coder rejects makes `getUserOpHash` throw the same error as `packUserOp` |
| `AaUtils.GetUserOpHashAcceptsOp` | aa-utils.ts:88 | conversely, when `getUserOpHash` returns, the coder accepted the operation's nine fields |
| `AaUtils.GetUserOpHashAcceptsContext` | aa-utils.ts:89-99 | and it accepted the chain id, paymaster address, sender nonce, validUntil and validAfter |
| `AaUtils.PersonalMessageHeader` | aa-utils.ts:124-127 | the source's header followed by the 32-byte hash is the EIP-191 personal message of the hash, 60 bytes long |
| `AaUtils.SignUserOp` | aa-utils.ts:106-141 | a signed result differs from the input operation only in `signature`, which is a 132-character hex string; an invalid key throws |
| `AaUtils.SignUserOpErrors` | aa-utils.ts:115-132 | `signUserOp` throws the hash's error first, then the key's; it succeeds exactly when the hash succeeds and the key is a valid scalar |
| `AaUtils.SignUserOpSignature` | aa-utils.ts:124-140 | the new signature is `toRpcSig` of `ecsign` over Keccak-256 of the personal message of the operation hash |
| `AaUtils.SignUserOpSignatureBytes` | aa-utils.ts:136-140 | the new signature is the lower-case hex spelling of 65 bytes |
| `Abi.Encode` | aa-utils.ts:89-99 | the encoder succeeds exactly when the counts match and every value is accepted for its type; its output is a hex string |
| `Abi.CoerceAll` | aa-utils.ts:37-64 | a tuple is accepted exactly when every element is; the result holds each accepted value in place, and a failure carries the first rejected element's error |
| `Abi.Coerce` | aa-utils.ts:89-99 | an accepted value fits its slot type; a whole JS number fits a `uintN` slot exactly when it is non-negative, below 2^N and strictly below 2^53−1; a non-string never passes as an address; a plain object never passes as `bytes` |
| `Abi.CoerceUint` | aa-utils.ts:89-99 | a `uintN` slot accepts a value exactly when `BigNumber.from` converts it to a number in [0, 2^N), and holds that number; a BigNumber is accepted exactly when it is in range; otherwise the error is `BigNumber.from`'s or the out-of-bounds one |
| `Abi.CoerceAddress` | aa-utils.ts:94 | an `address` slot accepts exactly what `getAddress` accepts, holds the number its 20 bytes spell, and writing that number back in 20 bytes gives those bytes; otherwise the error is `getAddress`'s |
| `Abi.CoerceBytes` | aa-utils.ts:92 | a `bytes` slot accepts exactly what `arrayify` accepts and holds the bytes it returns; otherwise the error is `arrayify`'s |
| `Abi.Layout` | aa-utils.ts:37-64 | the encoding of a tuple is 32 bytes per value plus its tails; `Abi.DecodeLayout` reads every value back from it |
| `Abi.DecodeAt` | aa-utils.ts:66-67 | the decoder partner: what Solidity's `abi.decode` reads from a slot always fits the slot's type, and it reads nothing from a slot that lies outside the bytes |
| `Abi.DecodeLayout` | aa-utils.ts:37-64 | every element of an encoded tuple decodes from its slot to the value encoded |
| `Abi.EncodeRoundTrip` | aa-utils.ts:89-99 | decoding what the encoder returned gives back, slot by slot, the values it accepted |
| `Abi.TailsAppend` | aa-utils.ts:37-64 | the tails of two tuples side by side are the tails of the first followed by those of the second |
| `Words.WordRoundTrip` | aa-utils.ts:37-64 | a number below 2^256 is recovered from its 32-byte big-endian head word |
| `Words.MinimalBigEndian` | aa-utils.ts:54-55 | the bytes `arrayify` makes of a non-negative number are its shortest big-endian spelling: at least one byte, no leading zero byte unless it is the only one, and they read back as the number |
| `Words.FromToBigEndian` | aa-utils.ts:89-99 | reading back an n-byte big-endian spelling of a number below 256^n gives the number |
| `Hex.ToHex` | aa-utils.ts:68-70 | `hexlify` of n bytes is a hex string of 2 + 2n characters |
| `Hex.DecodeHexDigitsRoundTrip` | aa-utils.ts:68-72 | decoding the hex digits of a byte string recovers the bytes |
| `Ethers.ArrayifyToHex` | aa-utils.ts:124-127 | `arrayify` undoes `hexlify` |
| `Ethers.HexDataSlicePrefix` | aa-utils.ts:68-72 | `hexDataSlice(hex, 0, k)` of a hexlified byte string spells exactly its first k bytes |
| `Ethers.Arrayify` | aa-utils.ts:126 | `arrayify` accepts a string exactly when it is an even-length hex string, returning one byte per two digits; a number it accepts comes back as its big-endian bytes; a fraction or a plain object is refused as an invalid arrayify value, and `undefined` throws the `TypeError` of reading its `toHexString` |
| `Ethers.ChecksumDigits` | aa-utils.ts:94 | the EIP-55 spelling of a 40-digit address has 40 digits |
| `Ethers.ChecksumKeepsDigits` | aa-utils.ts:94 | the EIP-55 spelling only changes letter case: each digit is the input digit or its upper-case form, and lower-casing gives back the lower-cased input |
| `Ethers.Hexlify` | aa-utils.ts:69 | `hexlify` accepts a string exactly when it is an even-length hex string, and returns it in lower case |
| `Ethers.HexDataSlice` | aa-utils.ts:68-72 | `hexDataSlice` succeeds exactly on even-length hex strings |
| `Ethers.ParseBigNumberString` | aa-utils.ts:89-99 | `BigNumber.from` on a string gives a negative number only after a leading minus; a `0x` spelling is accepted exactly when hex digits follow, as the number they spell |
| `Ethers.Keccak256` | aa-utils.ts:100 | ethers' `keccak256` succeeds exactly on even-length hex strings and returns the 66-character spelling of the digest of the bytes they spell |
| `Ethers.GetAddress` | aa-utils.ts:94 | `getAddress` returns 20 bytes and refuses every non-string |
| `Ethers.GetAddressSpelling` | aa-utils.ts:94 | `getAddress` accepts exactly forty hex digits, with or without `0x`, in one letter case or in EIP-55 checksum case, and returns the 20 bytes those digits spell |
| `Ethers.LowerCaseAddressAccepted` | aa-utils.ts:94 | an all-lower-case 40-digit address is accepted without a checksum check, whatever the hash function |
| `Ethers.BigNumberFrom` | aa-utils.ts:93-97 | a whole JS number converts exactly when it lies strictly between −(2^53−1) and 2^53−1, and keeps its value; a JS number with a fractional part throws the underflow fault; `undefined` and plain objects are refused |
| `Js.Substring` | aa-utils.ts:68-72 | `substring`, which `hexDataSlice` uses, is the slice between its bounds when they lie in the string, in either order, and never longer than the string |
| `Js.IndexOf` | index.ts:39 | `indexOf` is -1 exactly when the value is not a string on the list; otherwise it is the first index holding that very string |
| `Paymaster.GetPaymasterAndData` | index.ts:35-60 | as written: a sender not on the module-level list gets `""` |
| `Paymaster.MembershipIsExact` | index.ts:25-39 | membership is exact string equality: of all the letter-case spellings of the listed sender, every one except the listed spelling gets `""` |
| `Paymaster.IgnoresOwnAllowlist` | index.ts:28-39 | as written, the answer does not depend on the list the instance was constructed with |
| `Paymaster.CallSiteContextRejected` | index.ts:42-50 | with `44787` in `signUserOp`'s paymasterAddress place, `getAddress` throws, so the signing context is never accepted |
| `Paymaster.AllowListedAlwaysFails` | index.ts:39-59 | as written, every listed sender gets an error; the call succeeds exactly for unlisted senders, and then returns `""` |
| `Paymaster.RecordSignatureRejected` | index.ts:52-55 | putting the signed operation object in the `bytes` slot makes the encoder throw `arrayify`'s error |
| `Paymaster.ValidUntil` | index.ts:41 | as written, validUntil is the exact quotient `Date.now() / 1000 + 600`; it is a whole number exactly when the clock is on a whole second, and otherwise a number with a fractional part |
| `Paymaster.FractionalValidUntilRejected` | index.ts:41-50 | as written, off a whole second the `uint48` slot refuses validUntil with the underflow fault, so even with the other arguments repaired the signing succeeds only on a whole-second clock reading |
| `Paymaster.WholeSecondRoundsDown` | index.ts:41 | corrected: the whole-second validUntil is the number of whole seconds the clock has passed, plus 600, and equals the source's validUntil exactly when that is whole |
| `Paymaster.WholeSecondValidUntilAccepted` | index.ts:41-50 | corrected: the `uint48` slot accepts the whole-second validUntil exactly when it is in [0, 2^48), as that number |
| `Paymaster.GetPaymasterAndDataCorrected` | index.ts:35-60 | corrected: a sender not on the instance's own list gets `""` |
| `Paymaster.SponsorshipPayload` | index.ts:52-55 | the `defaultAbiCoder.encode` of (paymaster, validUntil, 0, signature) succeeds exactly when the coder accepts the paymaster address, validUntil as `uint48` and the signature as `bytes`; its result is a hex string |
| `Paymaster.SponsorshipAccepted` | index.ts:52-55 | the sponsorship tuple is accepted exactly when those three values are: validAfter 0 always fits |
| `Paymaster.SponsorshipEncoded` | index.ts:52-55 | the coder accepts (paymaster, validUntil below 2^48, 0, hex signature) and encodes the tuple of the checked address, validUntil, 0 and the signature bytes; with the paymaster contract's address, that is what `SponsorshipPayload` returns |
| `Paymaster.SponsorshipLength` | index.ts:52-55 | a sponsorship with a 65-byte signature encodes to 256 bytes |
| `Paymaster.SponsorshipRoundTrip` | index.ts:52-55 | the sponsorship survives `arrayify` and Solidity's `abi.decode` of the same four types, field by field |
| `Paymaster.SponsorshipLayoutDiffersFromDummy` | index.ts:52-55 | with a 65-byte signature the sponsorship is 256 bytes, while `DUMMY_PND` is 149; so in a packed operation its tail is 288 bytes where the dummy's is 192 |
| `Paymaster.IntendedContextAccepted` | index.ts:41-50 | corrected: when the intended signing succeeds, the paymaster address passes `getAddress` and the whole-second validUntil fits 48 bits |
| `Paymaster.CorrectedPayload` | index.ts:39-56 | corrected: that answer is the hex encoding of (paymaster, the whole-second validUntil, 0, the 65-byte signature) |
| `Paymaster.CorrectedPayloadDecodes` | index.ts:41-56 | corrected: decoding the answer with Solidity's `abi.decode` of the same four types gives the paymaster address in slot 0, the whole-second validUntil in slot 1, validAfter = 0 in slot 2 and `signUserOp`'s 65-byte signature in slot 3 |

## Left out

- Keccak-256, secp256k1 `ecsign`, private-key validity and `toRpcSig` are foreign cryptographic code. They are uninterpreted parameters (`Primitives`); `toRpcSig` yields 65 bytes.
- The clock is a parameter: `nowMs` is the integer that `Date.now()` returns, in milliseconds. JavaScript numbers are modelled as integers (`Num`) or as reals with a fractional part (`Frac`); floating-point rounding, `NaN` and infinities are not modelled.
- `PrivateKeyWallet` construction and `process.env.SIGNER_KEY` are key management. The model takes the key value `signerKey` as a parameter.
- `getPaymasterAndData` is `async`: an exception becomes a rejected promise. The model returns the exception as an `Err` result.
- `userOp` is a `Partial` struct: a missing field is modelled as the JavaScript value `undefined`.
- `main` in index.ts (wallet bootstrapping, SDK wiring, logging), lib/provider-utils.ts, sdk-calls.ts and hardhat.config.js are I/O and configuration; they are not part of this model.
- `getAddress` also accepts ICAP (`XE…`) addresses; the model refuses them. `BigNumber.from` on strings is modelled for decimal and `0x`-hex spellings with an optional minus sign; every other spelling is refused.
- The error kinds of `Js.Error` abstract ethers' error messages and codes. Only which check fails is modelled, not the message text.
- `Paymaster.AllowListedAlwaysFails` states that a listed sender gets an error. It does not say which one: `packUserOp`'s error when the operation is rejected, otherwise `getAddress`'s.
- Whether `ALLOWLIST_PAYMASTER_ADDRESS` passes the EIP-55 checksum depends on the real Keccak-256, which the model does not interpret. The corrected lemmas take a successful signing as given; that implies it passes (`Paymaster.IntendedContextAccepted`).
- `Paymaster.GetPaymasterAndDataCorrected` corrects the call's arguments and keeps its `defaultAbiCoder.encode` tuple layout. It does not switch to the layout of `DUMMY_PND`: address, validUntil word, validAfter word and signature back to back, 149 bytes. The paymaster contract that would read the answer is not part of this repository, so which layout it expects is not known. `Paymaster.SponsorshipLayoutDiffersFromDummy` states the difference. The corrected member also rounds validUntil down to whole seconds, where the source passes the exact quotient `Date.now() / 1000 + 600` (see Findings).
- `Js.Value` has no byte-array (`Uint8Array`, `number[]`) and no native `bigint` variant. Every `BytesLike` field is modelled as a hex string, and every `BigNumberish` as a JS number, a BigNumber or a string. `arrayify` and `BigNumber.from` on byte arrays and bigints are not modelled. Promise-valued fields (`PromiseOrValue<…>`) are not modelled either: every field is taken as already resolved.

## Findings

| source | as written | input that shows it | evidently intended | confidence | as-written member | corrected member |
|---|---|---|---|---|---|---|
| index.ts:42-50 | `signUserOp(userOp, signer, ENTRYPOINT, 44787, 0, validUntil, 0)` against the parameters `(op, signer, chainId, paymasterAddress, senderNonce, validUntil, validAfter)` puts the number 44787 in the address place | any user operation whose sender is `0xdA82D492a49d08cF732A47Acf34efb51BE351dd6`: `getAddress(44787)` throws, so no listed sender is ever sponsored | chain id 44787 and the paymaster contract's address `ALLOWLIST_PAYMASTER_ADDRESS` | not executed; high | `Paymaster.AllowListedAlwaysFails` | `Paymaster.CorrectedPayloadDecodes` |
| index.ts:52-55 | the whole operation returned by `signUserOp` goes into the `bytes` slot | any operation `signUserOp` does sign: `arrayify` of a plain object throws | the signed operation's `signature` field | not executed; high | `Paymaster.RecordSignatureRejected` | `Paymaster.CorrectedPayload` |
| index.ts:39 | membership is checked against the module-level `allowList`, not `this.allowlist` | `new AllowlistPaymaster([])` and the listed sender: as written it still tries to sign | the list the instance was constructed with | not executed; medium | `Paymaster.IgnoresOwnAllowlist` | `Paymaster.GetPaymasterAndDataCorrected` |
| index.ts:41 | `Date.now() / 1000 + 10 * 60` divides exactly, so validUntil has a fractional part unless the clock is on a whole second | `Date.now()` = 1700000000123 gives 1700000600.123, which `BigNumber.from` refuses in the `uint48` slot, so the signing throws even with the other arguments repaired | the clock in whole seconds, e.g. `Math.floor(Date.now() / 1000) + 10 * 60` | not executed; high | `Paymaster.FractionalValidUntilRejected` | `Paymaster.WholeSecondValidUntilAccepted` |

=== FILE: aa_utils.dfy ===
/** The paymaster co-signing pipeline of `aa-utils.ts`: pack a user
    operation the way the verifying paymaster contract does, hash the packed
    bytes together with the signing context, and sign the digest as an
    EIP-191 personal message. */
module AaUtils {
  import opened Words
  import opened Hex
  import opened Js
  import opened Ethers
  import opened Abi
  import opened Primitives

  /** The bytes of the source's `DUMMY_PND` string: a paymaster address of
      twenty 0x01 bytes, a validUntil word holding 0x010101010101, a zero
      validAfter word, and a 65-byte signature of 0x01 bytes. */
  const DUMMY_PND_BYTES: seq<Byte> :=
    Repeat(1, 20) + Repeat(0, 26) + Repeat(1, 6) + Repeat(0, 32) + Repeat(1, 65)

  /** `DUMMY_PND`, "0x" followed by the 298 lower-case hex digits of the bytes above. */
  const DUMMY_PND: string := ToHex(DUMMY_PND_BYTES)

  /** The bytes of `DUMMY_SIGNATURE`: sixty-five 0x01 bytes. */
  const DUMMY_SIGNATURE_BYTES: seq<Byte> := Repeat(1, 65)

  const DUMMY_SIGNATURE: string := ToHex(DUMMY_SIGNATURE_BYTES)

  /** The number `packUserOp` subtracts from half the hex length of the
      encoding to find where to cut it. */
  const TRUNCATION: int := 321

  /** The ABI schema of the packed user operation. */
  const USER_OP_TYPES: seq<AbiType> := [
    TAddress,   // sender
    TUint256,   // nonce
    TBytes,     // initCode
    TBytes,     // callData
    TUint256,   // callGasLimit
    TUint256,   // verificationGasLimit
    TUint256,   // preVerificationGas
    TUint256,   // maxFeePerGas
    TUint256,   // maxPriorityFeePerGas
    TBytes,     // paymasterAndData (dummy)
    TBytes      // signature (dummy)
  ]

  /** The ABI schema of the digest preimage. */
  const HASH_TYPES: seq<AbiType> := [
    TBytes,     // packedUserOp
    TUint256,   // chainId
    TAddress,   // paymasterAddress
    TUint256,   // senderNonce
    TUint48,    // validUntil
    TUint48     // validAfter
  ]

  /** The EIP-191 version 0x45 header for a 32-byte message, as the source
      spells it. */
  const PERSONAL_MESSAGE_HEADER: string := "\U{19}Ethereum Signed Message:\n32"

  /** The values `packUserOp` hands to the encoder: the operation's first nine
      fields, then the two dummies in place of its own paymasterAndData and
      signature. */
  function PackArgs(op: UserOperation): (xs: seq<Value>)
    ensures |xs| == 11
    ensures xs[9] == Str(DUMMY_PND) && xs[10] == Str(DUMMY_SIGNATURE)
  {
    [op.sender, op.nonce, op.initCode, op.callData, op.callGasLimit,
     op.verificationGasLimit, op.preVerificationGas, op.maxFeePerGas,
     op.maxPriorityFeePerGas, Str(DUMMY_PND), Str(DUMMY_SIGNATURE)]
  }

  function PackedValues(keccak: Keccak, op: UserOperation): Result<seq<AbiValue>> {
    CoerceAll(keccak, USER_OP_TYPES, PackArgs(op))
  }

  /** The encoder accepts the operation's nine packed fields. */
  predicate FieldsAccepted(keccak: Keccak, op: UserOperation) {
    forall i :: 0 <= i < 9 ==> Coerce(keccak, USER_OP_TYPES[i], PackArgs(op)[i]).Ok?
  }

  /** `packUserOp(op)`: it succeeds exactly when the encoder accepts the
      operation's nine fields, and then returns a hex string. */
  function PackUserOp(keccak: Keccak, op: UserOperation): (r: Result<string>)
    ensures r.Ok? <==> FieldsAccepted(keccak, op)
    ensures r.Ok? ==> IsHexString(r.value)
  {
    PackedEncoding(keccak, op);
    PackEncoded(keccak, PackArgs(op))
  }

  /** The steps of `packUserOp` after the argument list is built: encode,
      `hexlify`, cut before the two dummy tails. */
  function PackEncoded(keccak: Keccak, xs: seq<Value>): Result<string> {
    var withDummies :- Encode(keccak, USER_OP_TYPES, xs);
    var hex :- Hexlify(withDummies);
    HexDataSlice(hex, 0, |withDummies| / 2 - TRUNCATION)
  }

  /** `getUserOpHash(op, chainId, paymasterAddress, senderNonce, validUntil, validAfter)`. */
  function GetUserOpHash(prims: Primitives, op: UserOperation, chainId: Value, paymasterAddress: Value,
                         senderNonce: Value, validUntil: Value, validAfter: Value): (r: Result<string>)
    ensures r.Ok? ==> IsHexString(r.value) && |r.value| == 66
    ensures r.Ok? ==> Arrayify(Str(r.value)).Ok? && ToHex(Arrayify(Str(r.value)).value) == r.value
  {
    var packedUserOp :- PackUserOp(prims.keccak, op);
    var enc :- Encode(prims.keccak, HASH_TYPES, HashArgs(packedUserOp, chainId, paymasterAddress, senderNonce, validUntil, validAfter));
    var hash :- Keccak256(prims.keccak, enc);
    ArrayifyToHex(prims.keccak(Arrayify(Str(enc)).value));
    Ok(hash)
  }

  /** The values `getUserOpHash` hands to the encoder. */
  function HashArgs(packedUserOp: string, chainId: Value, paymasterAddress: Value,
                    senderNonce: Value, validUntil: Value, validAfter: Value): (xs: seq<Value>)
    ensures |xs| == |HASH_TYPES|
  {
    [Str(packedUserOp), chainId, paymasterAddress, senderNonce, validUntil, validAfter]
  }

  /** `signUserOp(op, signer, chainId, paymasterAddress, senderNonce, validUntil, validAfter)`,
      with the signer given by its `privateKey` value. */
  function SignUserOp(prims: Primitives, op: UserOperation, privateKey: Value, chainId: Value,
                      paymasterAddress: Value, senderNonce: Value, validUntil: Value, validAfter: Value)
    : (r: Result<UserOperation>)
    ensures r.Ok? ==> GetUserOpHash(prims, op, chainId, paymasterAddress, senderNonce, validUntil, validAfter).Ok?
    ensures r.Ok? ==> r.value.(signature := op.signature) == op
    ensures r.Ok? ==> r.value.signature.Str? && IsHexString(r.value.signature.s) && |r.value.signature.s| == 2 + 2 * 65
    ensures GetUserOpHash(prims, op, chainId, paymasterAddress, senderNonce, validUntil, validAfter).Ok?
            && Arrayify(privateKey).Ok? && !prims.keyIsValid(Arrayify(privateKey).value)
            ==> r == Err(InvalidPrivateKey)
  {
    var message :- GetUserOpHash(prims, op, chainId, paymasterAddress, senderNonce, validUntil, validAfter);
    var digest := Arrayify(Str(message)).value;
    var msg1 := AsciiBytes(PERSONAL_MESSAGE_HEADER) + digest;
    var key :- Arrayify(privateKey);
    if !prims.keyIsValid(key) then Err(InvalidPrivateKey)
    else
      var sig := prims.ecsign(prims.keccak(msg1), key);
      Ok(op.(signature := Str(ToHex(prims.toRpcSig(sig)))))
  }

  // ---------------------------------------------------------------------
  // Reference definitions

  /** An encoding of the eleven packed fields whose last two places hold
      `bytes` values of the dummies' lengths, 149 and 65 bytes. */
  predicate PackedShape(vs: seq<AbiValue>) {
    && |vs| == 11
    && (forall i :: 0 <= i < 11 ==> Fits(USER_OP_TYPES[i], vs[i]))
    && |vs[9].data| == 149
    && |vs[10].data| == 65
  }

  /** The full encoding with its last 320 bytes cut off. */
  function Truncated(vs: seq<AbiValue>): (p: seq<Byte>)
    requires PackedShape(vs)
    ensures |p| >= 352
  {
    PackedTails(vs);
    var full := Layout(vs);
    full[..|full| - 320]
  }

  /** EIP-191 version 0x45: 0x19, "Ethereum Signed Message:\n", the decimal
      length of the message, then the message. */
  function PersonalMessage(data: seq<Byte>): (m: seq<Byte>)
    ensures |m| == 26 + |DecimalString(|data|)| + |data|
  {
    [0x19] + AsciiBytes("Ethereum Signed Message:\n") + AsciiBytes(DecimalString(|data|)) + data
  }

  /** The digest preimage written out slot by slot: the offset 192 of the
      packed operation, chain id, paymaster address, sender nonce, validUntil
      and validAfter, then the packed operation's length word, its bytes and
      the zero padding to a whole word. */
  function DigestPreimage(packed: seq<Byte>, chainId: nat, paymaster: nat, senderNonce: nat,
                          validUntil: nat, validAfter: nat): (pre: seq<Byte>)
    ensures |pre| == 224 + |packed| + PadLength(|packed|)
  {
    Word(192) + Word(chainId) + Word(paymaster) + Word(senderNonce) + Word(validUntil) + Word(validAfter)
      + (Word(|packed|) + packed + Zeros(PadLength(|packed|)))
  }

  /** The encoder accepts the signing context `getUserOpHash` is given. */
  predicate ContextAccepted(keccak: Keccak, chainId: Value, paymasterAddress: Value,
                            senderNonce: Value, validUntil: Value, validAfter: Value) {
    && Coerce(keccak, TUint256, chainId).Ok?
    && Coerce(keccak, TAddress, paymasterAddress).Ok?
    && Coerce(keccak, TUint256, senderNonce).Ok?
    && Coerce(keccak, TUint48, validUntil).Ok?
    && Coerce(keccak, TUint48, validAfter).Ok?
  }

  // ---------------------------------------------------------------------
  // packUserOp

  /** The dummies are valid `bytes` values: 149 and 65 bytes long. */
  lemma DummiesAccepted(keccak: Keccak)
    ensures Coerce(keccak, TBytes, Str(DUMMY_PND)) == Ok(BytesValue(DUMMY_PND_BYTES))
    ensures Coerce(keccak, TBytes, Str(DUMMY_SIGNATURE)) == Ok(BytesValue(DUMMY_SIGNATURE_BYTES))
    ensures |DUMMY_PND_BYTES| == 149 && |DUMMY_SIGNATURE_BYTES| == 65
  {
    CoerceHexBytes(keccak, DUMMY_PND_BYTES);
    CoerceHexBytes(keccak, DUMMY_SIGNATURE_BYTES);
  }

  /** The encoder accepts the packed tuple exactly when it accepts the
      operation's nine fields, and then the two dummies sit in the last
      two places. */
  lemma PackedValuesShape(keccak: Keccak, op: UserOperation)
    ensures PackedValues(keccak, op).Ok? <==> FieldsAccepted(keccak, op)
    ensures PackedValues(keccak, op).Ok? ==>
              && PackedShape(PackedValues(keccak, op).value)
              && PackedValues(keccak, op).value[9] == BytesValue(DUMMY_PND_BYTES)
              && PackedValues(keccak, op).value[10] == BytesValue(DUMMY_SIGNATURE_BYTES)
  {
    DummiesAccepted(keccak);
    var xs := PackArgs(op);
    assert Coerce(keccak, USER_OP_TYPES[9], xs[9]).Ok?;
    assert Coerce(keccak, USER_OP_TYPES[10], xs[10]).Ok?;
    var r := PackedValues(keccak, op);
    if r.Ok? {
      var vs := r.value;
      forall i | 0 <= i < 11 ensures Fits(USER_OP_TYPES[i], vs[i]) {
        assert Coerce(keccak, USER_OP_TYPES[i], xs[i]) == Ok(vs[i]);
      }
      assert Coerce(keccak, USER_OP_TYPES[9], xs[9]) == Ok(vs[9]);
      assert Coerce(keccak, USER_OP_TYPES[10], xs[10]) == Ok(vs[10]);
    }
  }

  /** The arithmetic behind the constant 321: the encoder returns "0x" and two
      hex digits per byte, so half the string length is one more than the
      byte length, and cutting at `length / 2 - 321` removes 320 bytes, the
      (32 + 160)-byte tail of the dummy paymasterAndData and the (32 + 96)-byte
      tail of the dummy signature. */
  lemma TruncationArithmetic(e: seq<Byte>)
    ensures |ToHex(e)| / 2 - TRUNCATION == |e| - 320
    ensures TailSize(|DUMMY_PND_BYTES|) == 32 + 160
    ensures TailSize(|DUMMY_SIGNATURE_BYTES|) == 32 + 96
    ensures TailSize(|DUMMY_PND_BYTES|) + TailSize(|DUMMY_SIGNATURE_BYTES|) == 320
  {
  }

  lemma {:induction false} TailsOfStatic(ws: seq<AbiValue>)
    requires forall i :: 0 <= i < |ws| ==> !ws[i].BytesValue?
    ensures Tails(ws) == []
  {
    if |ws| > 0 {
      TailsOfStatic(ws[1..]);
    }
  }

  lemma TailsPrefixStep(vs: seq<AbiValue>, i: nat)
    requires i < |vs|
    ensures Tails(vs[..i + 1]) == Tails(vs[..i]) + Tail(vs[i])
  {
    assert vs[..i + 1] == vs[..i] + [vs[i]];
    TailsAppend(vs[..i], [vs[i]]);
    assert [vs[i]][1..] == [];
  }

  /** Which of the packed fields are `bytes` and therefore have a tail. */
  lemma PackedKinds(vs: seq<AbiValue>)
    requires PackedShape(vs)
    ensures forall i :: 0 <= i < 11 ==> (vs[i].BytesValue? <==> i in {2, 3, 9, 10})
  {
    forall i | 0 <= i < 11 ensures vs[i].BytesValue? <==> i in {2, 3, 9, 10} {
      assert Fits(USER_OP_TYPES[i], vs[i]);
    }
  }

  /** The static runs of the first nine fields, before initCode and after
      callData, have no tails. */
  lemma PackedStaticTails(vs: seq<AbiValue>)
    requires PackedShape(vs)
    ensures Tails(vs[..2]) == []
    ensures Tails(vs[4..9]) == []
  {
    PackedKinds(vs);
    var a, b := vs[..2], vs[4..9];
    assert forall i :: 0 <= i < |a| ==> !a[i].BytesValue? by {
      forall i | 0 <= i < |a| ensures !a[i].BytesValue? {
        assert a[i] == vs[i];
      }
    }
    TailsOfStatic(a);
    assert forall i :: 0 <= i < |b| ==> !b[i].BytesValue? by {
      forall i | 0 <= i < |b| ensures !b[i].BytesValue? {
        assert b[i] == vs[i + 4];
      }
    }
    TailsOfStatic(b);
  }

  /** The first nine fields contribute only the tails of initCode and callData. */
  lemma PackedFieldTails(vs: seq<AbiValue>)
    requires PackedShape(vs)
    ensures Tails(vs[..2]) == []
    ensures Tails(vs[..3]) == Tail(vs[2])
    ensures Tails(vs[..9]) == Tail(vs[2]) + Tail(vs[3])
  {
    PackedStaticTails(vs);
    TailsPrefixStep(vs, 2);
    TailsPrefixStep(vs, 3);
    var b := vs[4..9];
    assert vs[..9] == vs[..4] + b;
    TailsAppend(vs[..4], b);
  }

  /** The tails of a packed tuple: those of initCode and callData, then the
      dummies' 192 and 128 bytes. */
  lemma PackedTails(vs: seq<AbiValue>)
    requires PackedShape(vs)
    ensures Tails(vs[..10]) == Tail(vs[2]) + Tail(vs[3]) + Tail(vs[9])
    ensures Tails(vs) == Tail(vs[2]) + Tail(vs[3]) + Tail(vs[9]) + Tail(vs[10])
    ensures |Tail(vs[9])| == 192 && |Tail(vs[10])| == 128
  {
    PackedKinds(vs);
    PackedFieldTails(vs);
    TailsPrefixStep(vs, 9);
    TailsPrefixStep(vs, 10);
    assert vs[..11] == vs;
  }

  /** The truncated encoding is as long as the eleven head slots and the
      tails of initCode and callData, and what is cut off is exactly the two
      dummy tails. */
  lemma TruncatedLayout(vs: seq<AbiValue>)
    requires PackedShape(vs)
    ensures |Truncated(vs)| == 352 + TailSize(|vs[2].data|) + TailSize(|vs[3].data|)
    ensures Layout(vs) == Truncated(vs) + Tail(vs[9]) + Tail(vs[10])
  {
    PackedTails(vs);
    PackedKinds(vs);
    var full := Layout(vs);
    var cut := |full| - 320;
    var dummies := Tail(vs[9]) + Tail(vs[10]);
    assert full == (Concat(Slots(vs)) + (Tail(vs[2]) + Tail(vs[3]))) + dummies;
    assert full == full[..cut] + full[cut..];
    SliceAppendRight(Concat(Slots(vs)) + (Tail(vs[2]) + Tail(vs[3])), dummies, cut, |full|);
  }

  /** The truncated encoding is a prefix of the full one holding the heads and
      the tails of initCode and callData. */
  lemma TruncatedSize(vs: seq<AbiValue>)
    requires PackedShape(vs)
    ensures Truncated(vs) == Layout(vs)[..|Truncated(vs)|]
    ensures |Truncated(vs)| == 352 + |Tail(vs[2])| + |Tail(vs[3])|
  {
    PackedTails(vs);
  }

  /** The truncated encoding agrees with the full one on every slot. */
  lemma TruncatedSlot(vs: seq<AbiValue>, i: nat)
    requires PackedShape(vs) && i < 11
    ensures Truncated(vs)[32 * i .. 32 * i + 32] == SlotWord(vs, i)
  {
    var full := Layout(vs);
    var p := Truncated(vs);
    LayoutSlot(vs, i);
    assert p[32 * i .. 32 * i + 32] == full[32 * i .. 32 * i + 32];
  }

  /** A `bytes` value whose slot and tail both lie in a prefix of an
      encoding decodes from that prefix. */
  lemma PrefixDecodesBytes(full: seq<Byte>, p: seq<Byte>, i: nat, o: nat, d: seq<Byte>)
    requires |p| <= |full| && p == full[..|p|]
    requires o < UINT256_LIMIT && |d| < UINT256_LIMIT
    requires 32 * i + 32 <= |p| && o + 32 + |d| <= |p|
    requires full[32 * i .. 32 * i + 32] == Word(o)
    requires full[o .. o + 32] == Word(|d|)
    requires full[o + 32 .. o + 32 + |d|] == d
    ensures DecodeAt(TBytes, p, i) == Some(BytesValue(d))
  {
    assert p[32 * i .. 32 * i + 32] == full[32 * i .. 32 * i + 32];
    assert p[o .. o + 32] == full[o .. o + 32];
    assert p[o + 32 .. o + 32 + |d|] == full[o + 32 .. o + 32 + |d|];
    DecodeBytesAt(p, i, o, d);
  }

  /** The tails of initCode and callData end before the cut. */
  lemma FieldTailsBeforeCut(vs: seq<AbiValue>, i: nat)
    requires PackedShape(vs) && (i == 2 || i == 3)
    ensures vs[i].BytesValue?
    ensures Offset(vs, i) + 32 + |vs[i].data| <= |Truncated(vs)|
  {
    TruncatedSize(vs);
    PackedFieldTails(vs);
    PackedKinds(vs);
    BytesTailParts(vs[i].data);
  }

  /** What decoding initCode or callData from the truncated encoding needs:
      the truncated encoding is a prefix of the full one, and the field's
      slot, length word and data all lie inside it. */
  lemma TruncatedBytesLayout(vs: seq<AbiValue>, i: nat)
    requires PackedShape(vs) && (i == 2 || i == 3)
    requires |Layout(vs)| < UINT256_LIMIT
    ensures vs[i].BytesValue?
    ensures |Truncated(vs)| <= |Layout(vs)| && Truncated(vs) == Layout(vs)[..|Truncated(vs)|]
    ensures Offset(vs, i) < UINT256_LIMIT && |vs[i].data| < UINT256_LIMIT
    ensures 32 * i + 32 <= |Truncated(vs)| && Offset(vs, i) + 32 + |vs[i].data| <= |Truncated(vs)|
    ensures Layout(vs)[32 * i .. 32 * i + 32] == Word(Offset(vs, i))
    ensures Layout(vs)[Offset(vs, i) .. Offset(vs, i) + 32] == Word(|vs[i].data|)
    ensures Layout(vs)[Offset(vs, i) + 32 .. Offset(vs, i) + 32 + |vs[i].data|] == vs[i].data
  {
    FieldTailsBeforeCut(vs, i);
    TruncatedSize(vs);
    LayoutBytesSlot(vs, i);
    LayoutBytesTail(vs, i);
  }

  /** initCode and callData decode from the truncated encoding: their tails
      lie wholly before the cut. */
  lemma TruncatedDecodesBytes(vs: seq<AbiValue>, i: nat)
    requires PackedShape(vs) && (i == 2 || i == 3)
    requires |Layout(vs)| < UINT256_LIMIT
    ensures DecodeAt(TBytes, Truncated(vs), i) == Some(vs[i])
  {
    TruncatedBytesLayout(vs, i);
    PrefixDecodesBytes(Layout(vs), Truncated(vs), i, Offset(vs, i), vs[i].data);
  }

  /** The tails of paymasterAndData and signature start at and 192 bytes
      past the end of the truncated encoding. */
  lemma DummyOffsets(vs: seq<AbiValue>, i: nat)
    requires PackedShape(vs) && (i == 9 || i == 10)
    ensures Offset(vs, i) == |Truncated(vs)| + 192 * (i - 9)
  {
    TruncatedSize(vs);
    PackedFieldTails(vs);
    PackedTails(vs);
  }

  /** So the offsets of paymasterAndData and signature point past the end
      of the truncated encoding, and neither field decodes from it. */
  lemma TruncatedDummyOffsets(vs: seq<AbiValue>, i: nat)
    requires PackedShape(vs) && (i == 9 || i == 10)
    requires |Layout(vs)| < UINT256_LIMIT
    ensures Truncated(vs)[32 * i .. 32 * i + 32] == Word(|Truncated(vs)| + 192 * (i - 9))
    ensures |Truncated(vs)| + 192 * (i - 9) < UINT256_LIMIT
  {
    TruncatedSlot(vs, i);
    DummyOffsets(vs, i);
    assert |Truncated(vs)| + 320 == |Layout(vs)|;
    assert vs[i].BytesValue? by {
      assert Fits(USER_OP_TYPES[i], vs[i]);
    }
  }

  /** Hence neither paymasterAndData nor signature decodes from the
      truncated encoding. */
  lemma TruncatedDummiesUndecodable(vs: seq<AbiValue>, i: nat)
    requires PackedShape(vs) && (i == 9 || i == 10)
    requires |Layout(vs)| < UINT256_LIMIT
    ensures DecodeAt(TBytes, Truncated(vs), i) == None
  {
    TruncatedDummyOffsets(vs, i);
    DecodeBytesPastEnd(Truncated(vs), i, |Truncated(vs)| + 192 * (i - 9));
  }

  /** Reading the truncated encoding as the packed user operation: the nine
      fields decode to the encoded values, while the two dummy fields do
      not. */
  lemma TruncatedDecodes(vs: seq<AbiValue>, i: nat)
    requires PackedShape(vs) && i < 11
    requires |Layout(vs)| < UINT256_LIMIT
    ensures i < 9 ==> DecodeAt(USER_OP_TYPES[i], Truncated(vs), i) == Some(vs[i])
    ensures 9 <= i ==> DecodeAt(TBytes, Truncated(vs), i) == None
  {
    if i == 2 || i == 3 {
      TruncatedDecodesBytes(vs, i);
    } else if i < 9 {
      TruncatedSlot(vs, i);
      assert Fits(USER_OP_TYPES[i], vs[i]);
      DecodeStaticAt(USER_OP_TYPES[i], Truncated(vs), i, vs[i], Offset(vs, i));
    } else {
      TruncatedDummiesUndecodable(vs, i);
    }
  }

  /** The steps of `packUserOp` succeed exactly when the encoder accepts the
      nine fields, and then give the hex spelling of the truncated layout. */
  lemma PackedEncoding(keccak: Keccak, op: UserOperation)
    ensures PackEncoded(keccak, PackArgs(op)).Ok? <==> FieldsAccepted(keccak, op)
    ensures PackEncoded(keccak, PackArgs(op)).Ok? ==>
              && PackedValues(keccak, op).Ok? && PackedShape(PackedValues(keccak, op).value)
              && PackEncoded(keccak, PackArgs(op)).value == ToHex(Truncated(PackedValues(keccak, op).value))
  {
    PackedValuesShape(keccak, op);
    if Encode(keccak, USER_OP_TYPES, PackArgs(op)).Ok? {
      EncodeLayout(keccak, USER_OP_TYPES, PackArgs(op));
      var vs := PackedValues(keccak, op).value;
      var full := Layout(vs);
      var enc := ToHex(full);
      assert Encode(keccak, USER_OP_TYPES, PackArgs(op)) == Ok(enc);
      HexlifyToHex(full);
      TruncationArithmetic(full);
      assert PackEncoded(keccak, PackArgs(op)) == HexDataSlice(enc, 0, |full| - 320);
      HexDataSlicePrefix(full, |full| - 320);
      assert Truncated(vs) == full[..|full| - 320];
    }
  }

  /** When the encoder accepts the fields, `packUserOp` returns the hex
      spelling of the truncated encoding. */
  lemma PackUserOpTruncates(keccak: Keccak, op: UserOperation)
    requires FieldsAccepted(keccak, op)
    ensures PackedValues(keccak, op).Ok? && PackedShape(PackedValues(keccak, op).value)
    ensures PackUserOp(keccak, op) == Ok(ToHex(Truncated(PackedValues(keccak, op).value)))
  {
    PackedEncoding(keccak, op);
    assert PackUserOp(keccak, op) == PackEncoded(keccak, PackArgs(op));
  }

  /** Otherwise `packUserOp` throws what the encoder throws for the first
      field it rejects. */
  lemma PackUserOpRejects(keccak: Keccak, op: UserOperation)
    requires !FieldsAccepted(keccak, op)
    ensures PackedValues(keccak, op).Err?
    ensures PackUserOp(keccak, op) == Err(PackedValues(keccak, op).error)
    ensures exists i :: 0 <= i < 9 && Coerce(keccak, USER_OP_TYPES[i], PackArgs(op)[i]) == Err(PackUserOp(keccak, op).error)
  {
    PackedValuesShape(keccak, op);
    DummiesAccepted(keccak);
    var xs := PackArgs(op);
    assert Coerce(keccak, USER_OP_TYPES[9], xs[9]).Ok?;
    assert Coerce(keccak, USER_OP_TYPES[10], xs[10]).Ok?;
  }

  /** The packed operation does not depend on the operation's own
      paymasterAndData and signature. */
  lemma PackIgnoresPaymasterFields(keccak: Keccak, op: UserOperation, paymasterAndData: Value, signature: Value)
    ensures PackUserOp(keccak, op.(paymasterAndData := paymasterAndData, signature := signature))
            == PackUserOp(keccak, op)
  {
    assert PackArgs(op.(paymasterAndData := paymasterAndData, signature := signature)) == PackArgs(op);
  }

  // ---------------------------------------------------------------------
  // getUserOpHash

  /** The digest tuple: the packed bytes and the five context values. */
  function DigestTuple(packed: seq<Byte>, chainId: nat, paymaster: nat, senderNonce: nat,
                       validUntil: nat, validAfter: nat): seq<AbiValue> {
    [BytesValue(packed), UintValue(chainId), AddressValue(paymaster), UintValue(senderNonce),
     UintValue(validUntil), UintValue(validAfter)]
  }

  lemma DigestTupleTails(packed: seq<Byte>, chainId: nat, paymaster: nat, senderNonce: nat,
                         validUntil: nat, validAfter: nat)
    ensures Tails(DigestTuple(packed, chainId, paymaster, senderNonce, validUntil, validAfter))
            == Word(|packed|) + packed + Zeros(PadLength(|packed|))
  {
    var ws := DigestTuple(packed, chainId, paymaster, senderNonce, validUntil, validAfter);
    var rest := ws[1..];
    assert forall i :: 0 <= i < |rest| ==> !rest[i].BytesValue?;
    TailsOfStatic(rest);
  }

  /** The six head slots of the digest tuple: the offset 192 of the packed
      bytes, then the five context values. */
  lemma DigestTupleSlots(packed: seq<Byte>, chainId: nat, paymaster: nat, senderNonce: nat,
                         validUntil: nat, validAfter: nat)
    ensures Slots(DigestTuple(packed, chainId, paymaster, senderNonce, validUntil, validAfter))
            == [Word(192), Word(chainId), Word(paymaster), Word(senderNonce), Word(validUntil), Word(validAfter)]
  {
    var ws := DigestTuple(packed, chainId, paymaster, senderNonce, validUntil, validAfter);
    assert ws[..0] == [];
  }

  /** The encoding of the digest tuple is the preimage written out slot by slot. */
  lemma HashLayout(packed: seq<Byte>, chainId: nat, paymaster: nat, senderNonce: nat,
                   validUntil: nat, validAfter: nat)
    ensures Layout(DigestTuple(packed, chainId, paymaster, senderNonce, validUntil, validAfter))
            == DigestPreimage(packed, chainId, paymaster, senderNonce, validUntil, validAfter)
  {
    DigestTupleTails(packed, chainId, paymaster, senderNonce, validUntil, validAfter);
    DigestTupleSlots(packed, chainId, paymaster, senderNonce, validUntil, validAfter);
    ConcatSix(Word(192), Word(chainId), Word(paymaster), Word(senderNonce), Word(validUntil), Word(validAfter));
  }

  /** With the signing context accepted, the coder turns the arguments of
      the digest into the digest tuple of the packed bytes and the coerced
      context. */
  lemma HashArgsCoerced(keccak: Keccak, p: seq<Byte>, chainId: Value, paymasterAddress: Value,
                        senderNonce: Value, validUntil: Value, validAfter: Value)
    requires ContextAccepted(keccak, chainId, paymasterAddress, senderNonce, validUntil, validAfter)
    ensures CoerceAll(keccak, HASH_TYPES, HashArgs(ToHex(p), chainId, paymasterAddress, senderNonce, validUntil, validAfter))
            == Ok(DigestTuple(p, Coerce(keccak, TUint256, chainId).value.n,
                              Coerce(keccak, TAddress, paymasterAddress).value.addr,
                              Coerce(keccak, TUint256, senderNonce).value.n,
                              Coerce(keccak, TUint48, validUntil).value.n,
                              Coerce(keccak, TUint48, validAfter).value.n))
  {
    var xs := HashArgs(ToHex(p), chainId, paymasterAddress, senderNonce, validUntil, validAfter);
    CoerceHexBytes(keccak, p);
    CoerceAllSix(keccak, HASH_TYPES, xs);
  }

  /** The encoding of the digest tuple, accepted context given. */
  lemma HashEncoding(keccak: Keccak, p: seq<Byte>, chainId: Value, paymasterAddress: Value,
                     senderNonce: Value, validUntil: Value, validAfter: Value)
    requires ContextAccepted(keccak, chainId, paymasterAddress, senderNonce, validUntil, validAfter)
    ensures var xs := HashArgs(ToHex(p), chainId, paymasterAddress, senderNonce, validUntil, validAfter);
            Encode(keccak, HASH_TYPES, xs)
            == Ok(ToHex(DigestPreimage(p, Coerce(keccak, TUint256, chainId).value.n,
                                       Coerce(keccak, TAddress, paymasterAddress).value.addr,
                                       Coerce(keccak, TUint256, senderNonce).value.n,
                                       Coerce(keccak, TUint48, validUntil).value.n,
                                       Coerce(keccak, TUint48, validAfter).value.n)))
  {
    var xs := HashArgs(ToHex(p), chainId, paymasterAddress, senderNonce, validUntil, validAfter);
    HashArgsCoerced(keccak, p, chainId, paymasterAddress, senderNonce, validUntil, validAfter);
    HashLayout(p, Coerce(keccak, TUint256, chainId).value.n,
               Coerce(keccak, TAddress, paymasterAddress).value.addr,
               Coerce(keccak, TUint256, senderNonce).value.n,
               Coerce(keccak, TUint48, validUntil).value.n,
               Coerce(keccak, TUint48, validAfter).value.n);
    EncodeLayout(keccak, HASH_TYPES, xs);
  }

  /** With the operation and the signing context accepted, `getUserOpHash`
      is Keccak-256 of the preimage of the truncated packed operation and the
      context. */
  lemma GetUserOpHashDigest(prims: Primitives, op: UserOperation, chainId: Value, paymasterAddress: Value,
                            senderNonce: Value, validUntil: Value, validAfter: Value)
    requires FieldsAccepted(prims.keccak, op)
    requires ContextAccepted(prims.keccak, chainId, paymasterAddress, senderNonce, validUntil, validAfter)
    ensures PackedValues(prims.keccak, op).Ok? && PackedShape(PackedValues(prims.keccak, op).value)
    ensures var k := prims.keccak;
            GetUserOpHash(prims, op, chainId, paymasterAddress, senderNonce, validUntil, validAfter)
            == Ok(ToHex(k(DigestPreimage(Truncated(PackedValues(k, op).value),
                                         Coerce(k, TUint256, chainId).value.n,
                                         Coerce(k, TAddress, paymasterAddress).value.addr,
                                         Coerce(k, TUint256, senderNonce).value.n,
                                         Coerce(k, TUint48, validUntil).value.n,
                                         Coerce(k, TUint48, validAfter).value.n))))
  {
    var k := prims.keccak;
    PackUserOpTruncates(k, op);
    var p := Truncated(PackedValues(k, op).value);
    HashEncoding(k, p, chainId, paymasterAddress, senderNonce, validUntil, validAfter);
    var pre := DigestPreimage(p, Coerce(k, TUint256, chainId).value.n,
                              Coerce(k, TAddress, paymasterAddress).value.addr,
                              Coerce(k, TUint256, senderNonce).value.n,
                              Coerce(k, TUint48, validUntil).value.n,
                              Coerce(k, TUint48, validAfter).value.n);
    ArrayifyToHex(pre);
    assert Keccak256(k, ToHex(pre)) == Ok(ToHex(k(pre)));
  }

  /** The encoder rejects the digest arguments whose signing context it
      does not accept. */
  lemma HashArgsRejected(keccak: Keccak, packedUserOp: string, chainId: Value, paymasterAddress: Value,
                         senderNonce: Value, validUntil: Value, validAfter: Value)
    requires !ContextAccepted(keccak, chainId, paymasterAddress, senderNonce, validUntil, validAfter)
    ensures Encode(keccak, HASH_TYPES, HashArgs(packedUserOp, chainId, paymasterAddress, senderNonce, validUntil, validAfter)).Err?
  {
    var xs := HashArgs(packedUserOp, chainId, paymasterAddress, senderNonce, validUntil, validAfter);
    var j := if !Coerce(keccak, TUint256, chainId).Ok? then 1
             else if !Coerce(keccak, TAddress, paymasterAddress).Ok? then 2
             else if !Coerce(keccak, TUint256, senderNonce).Ok? then 3
             else if !Coerce(keccak, TUint48, validUntil).Ok? then 4
             else 5;
    assert !Coerce(keccak, HASH_TYPES[j], xs[j]).Ok?;
  }

  /** With the operation accepted, `getUserOpHash` throws when the encoder
      rejects the signing context. */
  lemma GetUserOpHashRejectsContext(prims: Primitives, op: UserOperation, chainId: Value, paymasterAddress: Value,
                                    senderNonce: Value, validUntil: Value, validAfter: Value)
    requires FieldsAccepted(prims.keccak, op)
    requires !ContextAccepted(prims.keccak, chainId, paymasterAddress, senderNonce, validUntil, validAfter)
    ensures GetUserOpHash(prims, op, chainId, paymasterAddress, senderNonce, validUntil, validAfter).Err?
  {
    PackUserOpTruncates(prims.keccak, op);
    HashArgsRejected(prims.keccak, PackUserOp(prims.keccak, op).value, chainId, paymasterAddress,
                     senderNonce, validUntil, validAfter);
  }

  /** A user operation the encoder rejects makes `getUserOpHash` throw the
      same error. */
  lemma GetUserOpHashRejects(prims: Primitives, op: UserOperation, chainId: Value, paymasterAddress: Value,
                             senderNonce: Value, validUntil: Value, validAfter: Value)
    requires !FieldsAccepted(prims.keccak, op)
    ensures GetUserOpHash(prims, op, chainId, paymasterAddress, senderNonce, validUntil, validAfter)
            == Err(PackedValues(prims.keccak, op).error)
  {
    PackUserOpRejects(prims.keccak, op);
  }

  /** Conversely, a hash `getUserOpHash` returns means the coder accepted
      the operation. */
  lemma GetUserOpHashAcceptsOp(prims: Primitives, op: UserOperation, chainId: Value, paymasterAddress: Value,
                               senderNonce: Value, validUntil: Value, validAfter: Value)
    ensures GetUserOpHash(prims, op, chainId, paymasterAddress, senderNonce, validUntil, validAfter).Ok?
            ==> FieldsAccepted(prims.keccak, op)
  {
    if !FieldsAccepted(prims.keccak, op) {
      GetUserOpHashRejects(prims, op, chainId, paymasterAddress, senderNonce, validUntil, validAfter);
    }
  }

  /** It also means the coder accepted the signing context. */
  lemma GetUserOpHashAcceptsContext(prims: Primitives, op: UserOperation, chainId: Value, paymasterAddress: Value,
                                    senderNonce: Value, validUntil: Value, validAfter: Value)
    ensures GetUserOpHash(prims, op, chainId, paymasterAddress, senderNonce, validUntil, validAfter).Ok?
            ==> ContextAccepted(prims.keccak, chainId, paymasterAddress, senderNonce, validUntil, validAfter)
  {
    if GetUserOpHash(prims, op, chainId, paymasterAddress, senderNonce, validUntil, validAfter).Ok? {
      var xs := HashArgs(PackUserOp(prims.keccak, op).value, chainId, paymasterAddress, senderNonce,
                         validUntil, validAfter);
      assert Encode(prims.keccak, HASH_TYPES, xs).Ok?;
      assert Coerce(prims.keccak, HASH_TYPES[1], xs[1]).Ok?;
      assert Coerce(prims.keccak, HASH_TYPES[2], xs[2]).Ok?;
      assert Coerce(prims.keccak, HASH_TYPES[3], xs[3]).Ok?;
      assert Coerce(prims.keccak, HASH_TYPES[4], xs[4]).Ok?;
      assert Coerce(prims.keccak, HASH_TYPES[5], xs[5]).Ok?;
    }
  }

  // ---------------------------------------------------------------------
  // signUserOp

  /** The header the source spells out is 0x19, "Ethereum Signed Message:\n"
      and the decimal length 32. */
  lemma HeaderBytes()
    ensures AsciiBytes(PERSONAL_MESSAGE_HEADER)
            == [0x19] + AsciiBytes("Ethereum Signed Message:\n") + AsciiBytes(DecimalString(32))
  {
    assert DecimalString(32) == "32";
    assert PERSONAL_MESSAGE_HEADER == "\U{19}" + "Ethereum Signed Message:\n" + "32";
    AsciiBytesAppend("\U{19}", "Ethereum Signed Message:\n");
    AsciiBytesAppend("\U{19}" + "Ethereum Signed Message:\n", "32");
    assert AsciiBytes("\U{19}") == [0x19];
  }

  /** The source's header followed by a 32-byte digest is the EIP-191
      personal message of that digest. */
  lemma PersonalMessageHeader(digest: seq<Byte>)
    requires |digest| == 32
    ensures AsciiBytes(PERSONAL_MESSAGE_HEADER) + digest == PersonalMessage(digest)
    ensures |PersonalMessage(digest)| == 60
  {
    HeaderBytes();
  }

  /** `signUserOp` throws the hash's error, then the key's, and succeeds
      exactly when both are accepted and the key is a valid scalar. */
  lemma SignUserOpErrors(prims: Primitives, op: UserOperation, privateKey: Value, chainId: Value,
                         paymasterAddress: Value, senderNonce: Value, validUntil: Value, validAfter: Value)
    ensures var h := GetUserOpHash(prims, op, chainId, paymasterAddress, senderNonce, validUntil, validAfter);
            h.Err? ==> SignUserOp(prims, op, privateKey, chainId, paymasterAddress, senderNonce, validUntil, validAfter)
                       == Err(h.error)
    ensures var h := GetUserOpHash(prims, op, chainId, paymasterAddress, senderNonce, validUntil, validAfter);
            h.Ok? && Arrayify(privateKey).Err? ==>
              SignUserOp(prims, op, privateKey, chainId, paymasterAddress, senderNonce, validUntil, validAfter)
              == Err(Arrayify(privateKey).error)
    ensures var h := GetUserOpHash(prims, op, chainId, paymasterAddress, senderNonce, validUntil, validAfter);
            SignUserOp(prims, op, privateKey, chainId, paymasterAddress, senderNonce, validUntil, validAfter).Ok?
            <==> h.Ok? && Arrayify(privateKey).Ok? && prims.keyIsValid(Arrayify(privateKey).value)
  {
  }

  /** `signUserOp` replaces the signature with the RPC form of the ECDSA
      signature over Keccak-256 of the personal message of the user-operation
      hash. */
  lemma SignUserOpSignature(prims: Primitives, op: UserOperation, privateKey: Value, chainId: Value,
                            paymasterAddress: Value, senderNonce: Value, validUntil: Value, validAfter: Value)
    requires SignUserOp(prims, op, privateKey, chainId, paymasterAddress, senderNonce, validUntil, validAfter).Ok?
    ensures var h := GetUserOpHash(prims, op, chainId, paymasterAddress, senderNonce, validUntil, validAfter);
            var r := SignUserOp(prims, op, privateKey, chainId, paymasterAddress, senderNonce, validUntil, validAfter);
            && h.Ok?
            && var digest := Arrayify(Str(h.value)).value;
            && |digest| == 32
            && h.value == ToHex(digest)
            && r.value == op.(signature := Str(ToHex(prims.toRpcSig(
                 prims.ecsign(prims.keccak(PersonalMessage(digest)), Arrayify(privateKey).value)))))
  {
    var h := GetUserOpHash(prims, op, chainId, paymasterAddress, senderNonce, validUntil, validAfter);
    var digest := Arrayify(Str(h.value)).value;
    assert |digest| == 32;
    PersonalMessageHeader(digest);
  }

  /** The signature `signUserOp` puts into the operation is the lower-case
      hex spelling of 65 bytes. */
  lemma SignUserOpSignatureBytes(prims: Primitives, op: UserOperation, privateKey: Value, chainId: Value,
                                 paymasterAddress: Value, senderNonce: Value, validUntil: Value, validAfter: Value)
    requires SignUserOp(prims, op, privateKey, chainId, paymasterAddress, senderNonce, validUntil, validAfter).Ok?
    ensures var s := SignUserOp(prims, op, privateKey, chainId, paymasterAddress, senderNonce, validUntil, validAfter).value.signature;
            && Arrayify(s).Ok?
            && |Arrayify(s).value| == 65
            && s == Str(ToHex(Arrayify(s).value))
  {
    var h := GetUserOpHash(prims, op, chainId, paymasterAddress, senderNonce, validUntil, validAfter);
    var digest := Arrayify(Str(h.value)).value;
    ArrayifyToHex(prims.toRpcSig(prims.ecsign(prims.keccak(AsciiBytes(PERSONAL_MESSAGE_HEADER) + digest),
                                              Arrayify(privateKey).value)));
  }
}

=== FILE: abi.dfy ===
/** ethers' `defaultAbiCoder.encode` for the Solidity types the co-signer
    uses (`address`, `uint48`, `uint256`, `bytes`), and, as its partner, what
    Solidity's `abi.decode` of the same types reads back from the result.

    A tuple is encoded as one 32-byte head slot per element followed by the
    tails of the dynamic elements in order.  A static element's slot holds
    its value; a `bytes` element's slot holds the offset, from the start of
    the tuple, of its tail, which is a length word followed by the data
    right-padded with zeros to a whole number of words. */
module Abi {
  import opened Words
  import opened Hex
  import opened Js
  import opened Ethers

  datatype AbiType = TAddress | TUint48 | TUint256 | TBytes

  /** A value after the coder has checked and converted it.  An address is
      held as the number its twenty bytes spell, the way the coder writes
      it into its slot. */
  datatype AbiValue =
    | AddressValue(addr: nat)
    | UintValue(n: nat)
    | BytesValue(data: seq<Byte>)

  /** The value `v` is one the slot type `t` can hold. */
  predicate Fits(t: AbiType, v: AbiValue) {
    match t
    case TAddress => v.AddressValue? && v.addr < ADDRESS_LIMIT
    case TUint48 => v.UintValue? && v.n < UINT48_LIMIT
    case TUint256 => v.UintValue? && v.n < UINT256_LIMIT
    case TBytes => v.BytesValue?
  }

  /** The number the head slot of `v` holds when its tail, if it has one,
      starts at `offset`: the offset for a `bytes` value, the value itself
      otherwise. */
  function HeadValue(v: AbiValue, offset: nat): nat {
    match v
    case AddressValue(a) => a
    case UintValue(n) => n
    case BytesValue(_) => offset
  }

  /** The head slot itself, a big-endian word (so an address is left-padded
      with twelve zero bytes). */
  function HeadWord(v: AbiValue, offset: nat): (w: seq<Byte>)
    ensures |w| == 32
  {
    Word(HeadValue(v, offset))
  }

  /** Size in bytes of the tail of an `n`-byte `bytes` value: the length word
      and the data rounded up to whole words. */
  function TailSize(n: nat): nat {
    32 + 32 * ((n + 31) / 32)
  }

  /** The tail of a value: empty for a static one. */
  function Tail(v: AbiValue): (t: seq<Byte>)
    ensures v.BytesValue? ==> |t| == TailSize(|v.data|)
    ensures !v.BytesValue? ==> t == []
  {
    match v
    case BytesValue(d) =>
      assert PadLength(|d|) + |d| == 32 * ((|d| + 31) / 32);
      Word(|d|) + d + Zeros(PadLength(|d|))
    case _ => []
  }

  function Tails(vs: seq<AbiValue>): seq<Byte> {
    if |vs| == 0 then [] else Tail(vs[0]) + Tails(vs[1..])
  }

  /** Where the tail of element `i` starts: after all the head slots and
      the tails of the elements before it. */
  function Offset(vs: seq<AbiValue>, i: nat): nat
    requires i <= |vs|
  {
    32 * |vs| + |Tails(vs[..i])|
  }

  /** What head slot `i` holds: the value, or the offset of its tail. */
  function SlotWord(vs: seq<AbiValue>, i: nat): (w: seq<Byte>)
    requires i < |vs|
    ensures |w| == 32
  {
    HeadWord(vs[i], Offset(vs, i))
  }

  /** The head slots in order. */
  function Slots(vs: seq<AbiValue>): (ws: seq<seq<Byte>>)
    ensures |ws| == |vs| && AllWords(ws)
  {
    seq(|vs|, i requires 0 <= i < |vs| => SlotWord(vs, i))
  }

  /** The encoding of the tuple `vs`: the head slots, then the tails. */
  function Layout(vs: seq<AbiValue>): (e: seq<Byte>)
    ensures |e| == 32 * |vs| + |Tails(vs)|
  {
    ConcatWordsLength(Slots(vs));
    Concat(Slots(vs)) + Tails(vs)
  }

  /** What Solidity's `abi.decode` reads for element `i` of type `t`, or
      None when the slot or the tail it points at lies outside `enc`, or the
      slot holds a number too large for `t`. */
  function DecodeAt(t: AbiType, enc: seq<Byte>, i: nat): (r: Option<AbiValue>)
    ensures r.Some? ==> Fits(t, r.value)
    ensures r.Some? ==> 32 * i + 32 <= |enc|
  {
    if 32 * i + 32 > |enc| then None
    else
      var n := FromBigEndian(enc[32 * i .. 32 * i + 32]);
      FromBigEndianBounds(enc[32 * i .. 32 * i + 32]);
      match t
      case TAddress =>
        if n < ADDRESS_LIMIT then Some(AddressValue(n)) else None
      case TUint48 =>
        if n < UINT48_LIMIT then Some(UintValue(n)) else None
      case TUint256 =>
        Some(UintValue(n))
      case TBytes =>
        if n + 32 > |enc| then None
        else
          var len := FromBigEndian(enc[n .. n + 32]);
          if n + 32 + len > |enc| then None
          else Some(BytesValue(enc[n + 32 .. n + 32 + len]))
  }

  /** The exclusive upper bound of a `uintN` slot. */
  function UintLimit(t: AbiType): nat
    requires t.TUint48? || t.TUint256?
  {
    if t.TUint48? then UINT48_LIMIT else UINT256_LIMIT
  }

  /** The coder's check and conversion of one JavaScript value. */
  function Coerce(keccak: Keccak, t: AbiType, x: Value): (r: Result<AbiValue>)
    ensures r.Ok? ==> Fits(t, r.value)
    ensures (t.TUint48? || t.TUint256?) && x.Num? ==> (r.Ok? <==> 0 <= x.n < UintLimit(t) && x.n < MAX_SAFE)
    ensures t.TAddress? && !x.Str? ==> r == Err(InvalidAddress)
    ensures t.TBytes? && x.Record? ==> r == Err(InvalidArrayify)
  {
    match t
    case TAddress =>
      var a :- GetAddress(keccak, x);
      FromBigEndianBounds(a);
      Ok(AddressValue(FromBigEndian(a)))
    case TUint48 =>
      var n :- BigNumberFrom(x);
      if n < 0 || n >= UINT48_LIMIT then Err(ValueOutOfBounds) else Ok(UintValue(n))
    case TUint256 =>
      var n :- BigNumberFrom(x);
      if n < 0 || n >= UINT256_LIMIT then Err(ValueOutOfBounds) else Ok(UintValue(n))
    case TBytes =>
      var b :- Arrayify(x);
      Ok(BytesValue(b))
  }

  /** A `uintN` slot takes whatever `BigNumber.from` makes of the value, if
      it is non-negative and below the slot's bound; a JS number or a
      BigNumber keeps its value. */
  lemma CoerceUint(keccak: Keccak, t: AbiType, x: Value)
    requires t.TUint48? || t.TUint256?
    ensures Coerce(keccak, t, x).Ok? <==> BigNumberFrom(x).Ok? && 0 <= BigNumberFrom(x).value < UintLimit(t)
    ensures Coerce(keccak, t, x).Ok? ==> Coerce(keccak, t, x).value == UintValue(BigNumberFrom(x).value)
    ensures Coerce(keccak, t, x).Err? ==>
              Coerce(keccak, t, x).error == (if BigNumberFrom(x).Err? then BigNumberFrom(x).error else ValueOutOfBounds)
    ensures x.Big? ==> (Coerce(keccak, t, x).Ok? <==> 0 <= x.n < UintLimit(t))
    ensures (x.Num? || x.Big?) && Coerce(keccak, t, x).Ok? ==> Coerce(keccak, t, x).value == UintValue(x.n)
  {
  }

  /** An `address` slot takes exactly what `getAddress` accepts, as the
      number its twenty bytes spell, and writing that number back in twenty
      bytes gives those bytes. */
  lemma CoerceAddress(keccak: Keccak, x: Value)
    ensures Coerce(keccak, TAddress, x).Ok? <==> GetAddress(keccak, x).Ok?
    ensures Coerce(keccak, TAddress, x).Ok? ==>
              Coerce(keccak, TAddress, x).value == AddressValue(FromBigEndian(GetAddress(keccak, x).value))
    ensures Coerce(keccak, TAddress, x).Ok? ==>
              ToBigEndian(Coerce(keccak, TAddress, x).value.addr, 20) == GetAddress(keccak, x).value
    ensures Coerce(keccak, TAddress, x).Err? ==> Coerce(keccak, TAddress, x).error == GetAddress(keccak, x).error
  {
    if GetAddress(keccak, x).Ok? {
      ToFromBigEndian(GetAddress(keccak, x).value);
    }
  }

  /** A `bytes` slot takes exactly what `arrayify` accepts, as the bytes it
      returns. */
  lemma CoerceBytes(keccak: Keccak, x: Value)
    ensures Coerce(keccak, TBytes, x).Ok? <==> Arrayify(x).Ok?
    ensures Coerce(keccak, TBytes, x).Ok? ==> Coerce(keccak, TBytes, x).value == BytesValue(Arrayify(x).value)
    ensures Coerce(keccak, TBytes, x).Err? ==> Coerce(keccak, TBytes, x).error == Arrayify(x).error
  {
  }

  /** The values of a tuple, checked in order; the first failure is thrown. */
  function CoerceAll(keccak: Keccak, ts: seq<AbiType>, xs: seq<Value>): (r: Result<seq<AbiValue>>)
    requires |ts| == |xs|
    ensures r.Ok? <==> forall i :: 0 <= i < |ts| ==> Coerce(keccak, ts[i], xs[i]).Ok?
    ensures r.Ok? ==> |r.value| == |ts|
    ensures r.Ok? ==> forall i :: 0 <= i < |ts| ==> Coerce(keccak, ts[i], xs[i]) == Ok(r.value[i])
    ensures r.Err? ==> exists i :: 0 <= i < |ts| && Coerce(keccak, ts[i], xs[i]) == Err(r.error)
                          && forall j :: 0 <= j < i ==> Coerce(keccak, ts[j], xs[j]).Ok?
  {
    if |ts| == 0 then Ok([])
    else
      var v :- Coerce(keccak, ts[0], xs[0]);
      var rest :- CoerceAll(keccak, ts[1..], xs[1..]);
      Ok([v] + rest)
  }

  /** `defaultAbiCoder.encode(types, values)`: the encoding as a hex string. */
  function Encode(keccak: Keccak, ts: seq<AbiType>, xs: seq<Value>): (r: Result<string>)
    ensures r.Ok? <==> |ts| == |xs| && forall i :: 0 <= i < |ts| ==> Coerce(keccak, ts[i], xs[i]).Ok?
    ensures r.Ok? ==> IsHexString(r.value)
  {
    if |ts| != |xs| then Err(CountMismatch)
    else
      var vs :- CoerceAll(keccak, ts, xs);
      Ok(ToHex(Layout(vs)))
  }

  // ---------------------------------------------------------------------
  // Layout lemmas

  lemma {:induction false} TailsAppend(a: seq<AbiValue>, b: seq<AbiValue>)
    ensures Tails(a + b) == Tails(a) + Tails(b)
  {
    if |a| > 0 {
      assert (a + b)[0] == a[0];
      assert (a + b)[1..] == a[1..] + b;
      TailsAppend(a[1..], b);
    } else {
      assert a + b == b;
    }
  }

  /** The tails before element `i`, element `i`'s tail and the tails after it
      make up all the tails. */
  lemma TailsSplit(vs: seq<AbiValue>, i: nat)
    requires i < |vs|
    ensures Tails(vs) == Tails(vs[..i]) + Tail(vs[i]) + Tails(vs[i + 1..])
  {
    var rest := vs[i..];
    assert vs == vs[..i] + rest;
    TailsAppend(vs[..i], rest);
    assert rest[0] == vs[i] && rest[1..] == vs[i + 1..];
    assert Tails(rest) == Tail(vs[i]) + Tails(vs[i + 1..]);
  }

  /** Head slot `i` of the encoding is `SlotWord(vs, i)`. */
  lemma LayoutSlot(vs: seq<AbiValue>, i: nat)
    requires i < |vs|
    ensures Layout(vs)[32 * i .. 32 * i + 32] == SlotWord(vs, i)
  {
    var ws := Slots(vs);
    ConcatWordsSlot(ws, i);
    SliceAppendLeft(Concat(ws), Tails(vs), 32 * i, 32 * i + 32);
  }

  /** Element `i`'s tail sits in the encoding at `Offset(vs, i)`. */
  lemma LayoutTail(vs: seq<AbiValue>, i: nat)
    requires i < |vs|
    ensures Offset(vs, i) + |Tail(vs[i])| <= |Layout(vs)|
    ensures Layout(vs)[Offset(vs, i) .. Offset(vs, i) + |Tail(vs[i])|] == Tail(vs[i])
  {
    var c := Concat(Slots(vs));
    var x, t, y := Tails(vs[..i]), Tail(vs[i]), Tails(vs[i + 1..]);
    TailsSplit(vs, i);
    ConcatWordsLength(Slots(vs));
    assert Layout(vs) == c + (x + t + y);
    assert Offset(vs, i) == |c| + |x|;
    SliceMiddle(c, x, t, y);
  }

  /** A static slot that holds a value's word decodes to that value. */
  lemma DecodeStaticAt(t: AbiType, enc: seq<Byte>, i: nat, v: AbiValue, o: nat)
    requires Fits(t, v) && !t.TBytes?
    requires 32 * i + 32 <= |enc|
    requires enc[32 * i .. 32 * i + 32] == HeadWord(v, o)
    ensures DecodeAt(t, enc, i) == Some(v)
  {
    match v
    case AddressValue(a) =>
      WordRoundTrip(a);
    case UintValue(n) =>
      WordRoundTrip(n);
  }

  /** A `bytes` slot holding offset `o`, with the length word of `d` at `o`
      and `d` right after it, decodes to `d`. */
  lemma DecodeBytesAt(enc: seq<Byte>, i: nat, o: nat, d: seq<Byte>)
    requires o < UINT256_LIMIT && |d| < UINT256_LIMIT
    requires 32 * i + 32 <= |enc| && o + 32 + |d| <= |enc|
    requires enc[32 * i .. 32 * i + 32] == Word(o)
    requires enc[o .. o + 32] == Word(|d|)
    requires enc[o + 32 .. o + 32 + |d|] == d
    ensures DecodeAt(TBytes, enc, i) == Some(BytesValue(d))
  {
    WordRoundTrip(o);
    WordRoundTrip(|d|);
  }

  /** A `bytes` slot whose offset leaves no room for a length word does not
      decode. */
  lemma DecodeBytesPastEnd(enc: seq<Byte>, i: nat, o: nat)
    requires o < UINT256_LIMIT && 32 * i + 32 <= |enc| && o + 32 > |enc|
    requires enc[32 * i .. 32 * i + 32] == Word(o)
    ensures DecodeAt(TBytes, enc, i) == None
  {
    WordRoundTrip(o);
  }

  /** The tail of a `bytes` value starts with its length word, then its data. */
  lemma BytesTailParts(d: seq<Byte>)
    ensures |Tail(BytesValue(d))| >= 32 + |d|
    ensures Tail(BytesValue(d))[..32] == Word(|d|)
    ensures Tail(BytesValue(d))[32 .. 32 + |d|] == d
  {
    var w := Word(|d|);
    var t := Tail(BytesValue(d));
    assert t == (w + d) + Zeros(PadLength(|d|));
    SliceAppendLeft(w + d, Zeros(PadLength(|d|)), 0, 32);
    SliceAppendLeft(w + d, Zeros(PadLength(|d|)), 32, 32 + |d|);
    SliceAppendLeft(w, d, 0, 32);
    SliceAppendRight(w, d, 32, 32 + |d|);
  }

  /** Head slot `i` of a `bytes` value holds the offset of its tail. */
  lemma LayoutBytesSlot(vs: seq<AbiValue>, i: nat)
    requires i < |vs| && vs[i].BytesValue?
    ensures Layout(vs)[32 * i .. 32 * i + 32] == Word(Offset(vs, i))
  {
    LayoutSlot(vs, i);
  }

  /** At the offset of a `bytes` value sit its length word and its data. */
  lemma LayoutBytesTail(vs: seq<AbiValue>, i: nat)
    requires i < |vs| && vs[i].BytesValue?
    ensures Offset(vs, i) + 32 + |vs[i].data| <= |Layout(vs)|
    ensures Layout(vs)[Offset(vs, i) .. Offset(vs, i) + 32] == Word(|vs[i].data|)
    ensures Layout(vs)[Offset(vs, i) + 32 .. Offset(vs, i) + 32 + |vs[i].data|] == vs[i].data
  {
    var e := Layout(vs);
    var d := vs[i].data;
    var o := Offset(vs, i);
    var tl := Tail(vs[i]);
    LayoutTail(vs, i);
    BytesTailParts(d);
    SliceOfSlice(e, o, tl, 0, 32);
    SliceOfSlice(e, o, tl, 32, 32 + |d|);
  }

  /** Decoding element `i` of an encoding as the type it was encoded with
      gives back the value encoded there, as long as the encoding is shorter
      than 2^256 bytes. */
  lemma DecodeLayout(t: AbiType, vs: seq<AbiValue>, i: nat)
    requires i < |vs| && Fits(t, vs[i])
    requires |Layout(vs)| < UINT256_LIMIT
    ensures DecodeAt(t, Layout(vs), i) == Some(vs[i])
  {
    if t.TBytes? {
      LayoutBytesSlot(vs, i);
      LayoutBytesTail(vs, i);
      DecodeBytesAt(Layout(vs), i, Offset(vs, i), vs[i].data);
    } else {
      LayoutSlot(vs, i);
      DecodeStaticAt(t, Layout(vs), i, vs[i], Offset(vs, i));
    }
  }

  /** A tuple whose every value the coder accepts coerces to the values it
      accepts them as. */
  lemma {:induction false} CoerceAllAccepted(keccak: Keccak, ts: seq<AbiType>, xs: seq<Value>, vs: seq<AbiValue>)
    requires |ts| == |xs| == |vs|
    requires forall i :: 0 <= i < |ts| ==> Coerce(keccak, ts[i], xs[i]) == Ok(vs[i])
    ensures CoerceAll(keccak, ts, xs) == Ok(vs)
  {
    if |ts| > 0 {
      forall i | 0 <= i < |ts| - 1
        ensures Coerce(keccak, ts[1..][i], xs[1..][i]) == Ok(vs[1..][i])
      {
        assert ts[1..][i] == ts[i + 1] && xs[1..][i] == xs[i + 1] && vs[1..][i] == vs[i + 1];
      }
      CoerceAllAccepted(keccak, ts[1..], xs[1..], vs[1..]);
      assert Coerce(keccak, ts[0], xs[0]) == Ok(vs[0]);
      assert vs == [vs[0]] + vs[1..];
    }
  }

  /** Extending an accepted suffix of a tuple by one accepted value in front. */
  lemma CoerceAllStep(keccak: Keccak, ts: seq<AbiType>, xs: seq<Value>, vs: seq<AbiValue>, k: nat)
    requires |ts| == |xs| == |vs| && k < |ts|
    requires Coerce(keccak, ts[k], xs[k]) == Ok(vs[k])
    requires CoerceAll(keccak, ts[k + 1..], xs[k + 1..]) == Ok(vs[k + 1..])
    ensures CoerceAll(keccak, ts[k..], xs[k..]) == Ok(vs[k..])
  {
    assert ts[k..][1..] == ts[k + 1..] && xs[k..][1..] == xs[k + 1..];
    assert vs[k..] == [vs[k]] + vs[k + 1..];
  }

  /** A six-value tuple the coder accepts coerces place by place. */
  lemma CoerceAllSix(keccak: Keccak, ts: seq<AbiType>, xs: seq<Value>)
    requires |ts| == |xs| == 6
    requires forall i :: 0 <= i < 6 ==> Coerce(keccak, ts[i], xs[i]).Ok?
    ensures CoerceAll(keccak, ts, xs)
            == Ok([Coerce(keccak, ts[0], xs[0]).value, Coerce(keccak, ts[1], xs[1]).value,
                   Coerce(keccak, ts[2], xs[2]).value, Coerce(keccak, ts[3], xs[3]).value,
                   Coerce(keccak, ts[4], xs[4]).value, Coerce(keccak, ts[5], xs[5]).value])
  {
    var vs := [Coerce(keccak, ts[0], xs[0]).value, Coerce(keccak, ts[1], xs[1]).value,
               Coerce(keccak, ts[2], xs[2]).value, Coerce(keccak, ts[3], xs[3]).value,
               Coerce(keccak, ts[4], xs[4]).value, Coerce(keccak, ts[5], xs[5]).value];
    assert CoerceAll(keccak, ts[6..], xs[6..]) == Ok(vs[6..]);
    CoerceAllStep(keccak, ts, xs, vs, 5);
    CoerceAllStep(keccak, ts, xs, vs, 4);
    CoerceAllStep(keccak, ts, xs, vs, 3);
    CoerceAllStep(keccak, ts, xs, vs, 2);
    CoerceAllStep(keccak, ts, xs, vs, 1);
    CoerceAllStep(keccak, ts, xs, vs, 0);
    assert ts[0..] == ts && xs[0..] == xs && vs[0..] == vs;
  }

  /** The coder accepts every `hexlify`d byte string as `bytes`. */
  lemma CoerceHexBytes(keccak: Keccak, b: seq<Byte>)
    ensures Coerce(keccak, TBytes, Str(ToHex(b))) == Ok(BytesValue(b))
  {
    ArrayifyToHex(b);
  }

  /** What `Encode` produces when every value is accepted. */
  lemma EncodeLayout(keccak: Keccak, ts: seq<AbiType>, xs: seq<Value>)
    requires Encode(keccak, ts, xs).Ok?
    ensures CoerceAll(keccak, ts, xs).Ok?
    ensures Encode(keccak, ts, xs).value == ToHex(Layout(CoerceAll(keccak, ts, xs).value))
  {
  }

  /** Decoding what `Encode` produced recovers, slot by slot, the values the
      coder accepted. */
  lemma EncodeRoundTrip(keccak: Keccak, ts: seq<AbiType>, xs: seq<Value>, i: nat)
    requires Encode(keccak, ts, xs).Ok? && i < |ts|
    requires |Encode(keccak, ts, xs).value| < UINT256_LIMIT
    ensures Arrayify(Str(Encode(keccak, ts, xs).value)).Ok?
    ensures DecodeAt(ts[i], Arrayify(Str(Encode(keccak, ts, xs).value)).value, i)
            == Some(Coerce(keccak, ts[i], xs[i]).value)
  {
    EncodeLayout(keccak, ts, xs);
    var vs := CoerceAll(keccak, ts, xs).value;
    ArrayifyToHex(Layout(vs));
    assert Coerce(keccak, ts[i], xs[i]) == Ok(vs[i]);
    DecodeLayout(ts[i], vs, i);
  }
}

=== FILE: ethers.dfy ===
/** The ethers v5 utilities the co-signer calls, reduced to the checks they
    make and the bytes they produce.  Keccak-256 is a parameter. */
module Ethers {
  import opened Words
  import opened Hex
  import opened Js

  /** Keccak-256 over bytes. */
  type Keccak = seq<Byte> -> Bytes32

  /** `BigNumber.from(x)`. */
  function BigNumberFrom(x: Value): (r: Result<int>)
    ensures x.Num? ==> (r.Ok? <==> -MAX_SAFE < x.n < MAX_SAFE)
    ensures x.Num? || x.Big? ==> r.Ok? ==> r.value == x.n
    ensures x.Frac? ==> r == Err(NumericUnderflow)
    ensures x.Undefined? || x.Record? ==> r == Err(InvalidBigNumber)
  {
    match x
    case Num(n) => if n >= MAX_SAFE || n <= -MAX_SAFE then Err(NumericOverflow) else Ok(n)
    case Frac(_) => Err(NumericUnderflow)
    case Big(n) => Ok(n)
    case Str(s) => ParseBigNumberString(s)
    case Undefined => Err(InvalidBigNumber)
    case Record(_) => Err(InvalidBigNumber)
  }

  /** `BigNumber.from` on a string: optional "-", then "0x"/"0X" and hex
      digits, or decimal digits. */
  function ParseBigNumberString(s: string): (r: Result<int>)
    ensures r.Ok? && r.value < 0 ==> |s| >= 1 && s[0] == '-'
    ensures |s| >= 3 && s[0] == '0' && s[1] == 'x' ==> (r.Ok? <==> AllHexDigits(s[2..]))
    ensures |s| >= 3 && s[0] == '0' && s[1] == 'x' && AllHexDigits(s[2..]) ==> r == Ok(HexValue(s[2..]))
  {
    var neg := |s| >= 1 && s[0] == '-';
    var body := if neg then s[1..] else s;
    var magnitude: int :-
      if |body| >= 3 && body[0] == '0' && (body[1] == 'x' || body[1] == 'X') && AllHexDigits(body[2..]) then
        Ok(HexValue(body[2..]))
      else if |body| >= 1 && forall i :: 0 <= i < |body| ==> IsDecimalDigit(body[i]) then
        Ok(DecimalValue(body))
      else
        Err(InvalidBigNumber);
    Ok(if neg then -magnitude else magnitude)
  }

  /** `arrayify(x)` with default options. */
  function Arrayify(x: Value): (r: Result<seq<Byte>>)
    ensures x.Str? ==> (r.Ok? <==> IsHexString(x.s) && |x.s| % 2 == 0)
    ensures x.Str? && r.Ok? ==> 2 + 2 * |r.value| == |x.s|
    ensures (x.Num? || x.Big?) && r.Ok? ==> FromBigEndian(r.value) == x.n
    ensures x.Frac? || x.Record? ==> r == Err(InvalidArrayify)
    ensures x.Undefined? ==> r == Err(UndefinedProperty)
  {
    match x
    case Num(n) => if n < 0 || n >= MAX_SAFE then Err(InvalidArrayify) else Ok(MinimalBigEndian(n))
    case Frac(_) => Err(InvalidArrayify)
    case Big(n) => if n < 0 then Err(InvalidArrayify) else Ok(MinimalBigEndian(n))
    case Str(s) =>
      if !IsHexString(s) then Err(InvalidArrayify)
      else if |s| % 2 != 0 then Err(OddLengthHex)
      else
        assert AllHexDigits(s[2..]) by {
          forall i | 0 <= i < |s[2..]| ensures IsHexDigit(s[2..][i]) {
            assert s[2..][i] == s[i + 2];
          }
        }
        Ok(DecodeHexDigits(s[2..]))
    case Undefined => Err(UndefinedProperty)  // `isHexable` reads `value.toHexString`
    case Record(_) => Err(InvalidArrayify)
  }

  /** The forty digits of an address spelling: those after "0x" when the
      spelling has the prefix. */
  function AddressDigits(s: string): string {
    if |s| == 42 && s[0] == '0' && s[1] == 'x' then s[2..] else s
  }

  /** Forty hex digits in one letter case, or mixed exactly as the EIP-55
      checksum of their lower-case form dictates. */
  predicate AcceptedDigits(keccak: Keccak, d: string) {
    |d| == 40 && AllHexDigits(d)
    && (!HasUpperHexLetter(d) || !HasLowerHexLetter(d) || ChecksumDigits(keccak, ToLowerAscii(d)) == d)
  }

  /** `getAddress(x)`: the 20 address bytes, after the EIP-55 check on
      mixed-case spellings. */
  function GetAddress(keccak: Keccak, x: Value): (r: Result<seq<Byte>>)
    ensures r.Ok? ==> |r.value| == 20
    ensures !x.Str? ==> r == Err(InvalidAddress)
  {
    match x
    case Str(s) =>
      if |s| == 42 && s[0] == '0' && s[1] == 'x' && AllHexDigits(s[2..]) then CheckedAddress(keccak, s[2..])
      else if |s| == 40 && AllHexDigits(s) then CheckedAddress(keccak, s)
      else Err(InvalidAddress)
    case _ => Err(InvalidAddress)
  }

  predicate HasUpperHexLetter(d: string) {
    exists i :: 0 <= i < |d| && 'A' <= d[i] <= 'F'
  }

  predicate HasLowerHexLetter(d: string) {
    exists i :: 0 <= i < |d| && 'a' <= d[i] <= 'f'
  }

  function UpperAscii(c: char): char {
    if 'a' <= c <= 'z' then ((c as int) - 32) as char else c
  }

  /** EIP-55: digit `i` of the lower-case address is upper-cased when nibble
      `i` of the Keccak-256 of its ASCII spelling is 8 or more. */
  function ChecksumDigits(keccak: Keccak, lower: string): (d: string)
    requires |lower| == 40
    ensures |d| == 40
  {
    var h := keccak(AsciiBytes(lower));
    seq(40, i requires 0 <= i < 40 =>
      var nibble := if i % 2 == 0 then h[i / 2] / 16 else h[i / 2] % 16;
      if nibble >= 8 then UpperAscii(lower[i]) else lower[i])
  }

  /** The checksum only changes letter case: each digit is the input digit
      or its upper-case form, so lower-casing gives back the lower-cased
      input. */
  lemma ChecksumKeepsDigits(keccak: Keccak, lower: string)
    requires |lower| == 40
    ensures forall i :: 0 <= i < 40 ==>
              ChecksumDigits(keccak, lower)[i] == lower[i] || ChecksumDigits(keccak, lower)[i] == UpperAscii(lower[i])
    ensures ToLowerAscii(ChecksumDigits(keccak, lower)) == ToLowerAscii(lower)
  {
  }

  function CheckedAddress(keccak: Keccak, digits: string): (r: Result<seq<Byte>>)
    requires |digits| == 40 && AllHexDigits(digits)
    ensures r.Ok? ==> |r.value| == 20
    ensures !HasUpperHexLetter(digits) ==> r == Ok(DecodeHexDigits(digits))
  {
    if HasUpperHexLetter(digits) && HasLowerHexLetter(digits)
       && ChecksumDigits(keccak, ToLowerAscii(digits)) != digits
    then Err(BadAddressChecksum)
    else Ok(DecodeHexDigits(digits))
  }

  /** `hexlify(s)` on a string. */
  function Hexlify(s: string): (r: Result<string>)
    ensures r.Ok? <==> IsHexString(s) && |s| % 2 == 0
    ensures r.Ok? ==> r.value == ToLowerAscii(s)
  {
    if !IsHexString(s) then Err(InvalidHexData)
    else if |s| % 2 != 0 then Err(OddLengthHex)
    else Ok(ToLowerAscii(s))
  }

  /** `hexDataSlice(data, offset, endOffset)`: bytes `offset` up to
      `endOffset` of the data, as a hex string. */
  function HexDataSlice(data: string, offset: int, endOffset: int): (r: Result<string>)
    ensures r.Ok? <==> IsHexString(data) && |data| % 2 == 0
  {
    if !IsHexString(data) || |data| % 2 != 0 then Err(InvalidHexData)
    else Ok("0x" + Substring(data, 2 + 2 * offset, 2 + 2 * endOffset))
  }

  /** ethers' `keccak256(data)`: the digest of the bytes a hex string spells. */
  function Keccak256(keccak: Keccak, data: string): (r: Result<string>)
    ensures r.Ok? <==> IsHexString(data) && |data| % 2 == 0
    ensures r.Ok? ==> |r.value| == 66
    ensures r.Ok? ==> r.value == ToHex(keccak(Arrayify(Str(data)).value))
  {
    var b :- Arrayify(Str(data));
    Ok(ToHex(keccak(b)))
  }

  /** `arrayify` undoes `hexlify`. */
  lemma ArrayifyToHex(b: seq<Byte>)
    ensures Arrayify(Str(ToHex(b))) == Ok(b)
  {
    var s := ToHex(b);
    assert s[2..] == HexDigits(b);
    DecodeHexDigitsRoundTrip(b);
  }

  /** `hexlify` leaves the encoder's lower-case output unchanged. */
  lemma HexlifyToHex(b: seq<Byte>)
    ensures Hexlify(ToHex(b)) == Ok(ToHex(b))
  {
    ToHexIsLowerCase(b);
  }

  /** Slicing a `hexlify`d byte string from 0 keeps exactly the first bytes. */
  lemma HexDataSlicePrefix(b: seq<Byte>, k: nat)
    requires k <= |b|
    ensures HexDataSlice(ToHex(b), 0, k) == Ok(ToHex(b[..k]))
  {
    var s := ToHex(b);
    assert Substring(s, 2, 2 + 2 * k) == s[2..2 + 2 * k];
    assert s[2..2 + 2 * k] == HexDigits(b)[..2 * k];
    HexDigitsPrefix(b, k);
  }

  /** `getAddress` accepts exactly the strings of forty hex digits, with or
      without "0x", in one letter case or in EIP-55 checksum case, and
      returns the twenty bytes those digits spell. */
  lemma GetAddressSpelling(keccak: Keccak, x: Value)
    ensures GetAddress(keccak, x).Ok? <==> x.Str? && AcceptedDigits(keccak, AddressDigits(x.s))
    ensures GetAddress(keccak, x).Ok? ==> GetAddress(keccak, x).value == DecodeHexDigits(AddressDigits(x.s))
  {
  }

  /** An address is accepted in every letter case when spelled in lower
      case, whatever the hash function. */
  lemma LowerCaseAddressAccepted(keccak: Keccak, s: string)
    requires |s| == 42 && s[0] == '0' && s[1] == 'x'
    requires forall i :: 2 <= i < 42 ==> '0' <= s[i] <= '9' || 'a' <= s[i] <= 'f'
    ensures GetAddress(keccak, Str(s)) == Ok(DecodeHexDigits(s[2..]))
  {
    assert AllHexDigits(s[2..]) && !HasUpperHexLetter(s[2..]) by {
      forall i | 0 <= i < 40 ensures s[2..][i] == s[i + 2] { }
    }
  }
}

=== FILE: hex.dfy ===
/** "0x"-prefixed hexadecimal strings, the form in which ethers passes byte
    data, digests and addresses around. */
module Hex {
  import opened Words

  predicate IsHexDigit(c: char) {
    '0' <= c <= '9' || 'a' <= c <= 'f' || 'A' <= c <= 'F'
  }

  predicate IsDecimalDigit(c: char) {
    '0' <= c <= '9'
  }

  predicate AllHexDigits(s: string) {
    forall i :: 0 <= i < |s| ==> IsHexDigit(s[i])
  }

  /** ethers' `isHexString`: "0x" (lower-case x) followed by any number of hex digits. */
  predicate IsHexString(s: string) {
    && |s| >= 2 && s[0] == '0' && s[1] == 'x'
    && forall i :: 2 <= i < |s| ==> IsHexDigit(s[i])
  }

  function DigitValue(c: char): (r: nat)
    requires IsHexDigit(c)
    ensures r < 16
  {
    if '0' <= c <= '9' then (c as int) - ('0' as int)
    else if 'a' <= c <= 'f' then (c as int) - ('a' as int) + 10
    else (c as int) - ('A' as int) + 10
  }

  function LowerHexChar(v: nat): (c: char)
    requires v < 16
    ensures IsHexDigit(c) && !('A' <= c <= 'Z')
    ensures DigitValue(c) == v
  {
    if v < 10 then (('0' as int) + v) as char else (('a' as int) + v - 10) as char
  }

  /** Two lower-case hex digits per byte, most significant nibble first. */
  function HexDigits(b: seq<Byte>): (s: string)
    ensures |s| == 2 * |b|
    ensures AllHexDigits(s)
    ensures forall i :: 0 <= i < |s| ==> !('A' <= s[i] <= 'Z')
  {
    if |b| == 0 then ""
    else [LowerHexChar(b[0] / 16), LowerHexChar(b[0] % 16)] + HexDigits(b[1..])
  }

  /** ethers' `hexlify` of a byte array. */
  function ToHex(b: seq<Byte>): (s: string)
    ensures |s| == 2 + 2 * |b|
    ensures IsHexString(s)
  {
    "0x" + HexDigits(b)
  }

  /** The bytes spelled by an even number of hex digits (either case). */
  function DecodeHexDigits(d: string): (b: seq<Byte>)
    requires |d| % 2 == 0 && AllHexDigits(d)
    ensures |b| == |d| / 2
  {
    if |d| == 0 then []
    else [DigitValue(d[0]) * 16 + DigitValue(d[1])] + DecodeHexDigits(d[2..])
  }

  function Pow16(n: nat): (r: nat)
    ensures r >= 1
  {
    if n == 0 then 1 else 16 * Pow16(n - 1)
  }

  /** The unsigned integer spelled by a string of hex digits. */
  function HexValue(d: string): (r: nat)
    requires AllHexDigits(d)
    ensures r < Pow16(|d|)
  {
    if |d| == 0 then 0 else HexValue(d[..|d| - 1]) * 16 + DigitValue(d[|d| - 1])
  }

  /** The unsigned integer spelled by a string of decimal digits. */
  function DecimalValue(d: string): (r: nat)
    requires forall i :: 0 <= i < |d| ==> IsDecimalDigit(d[i])
  {
    if |d| == 0 then 0
    else
      assert IsDecimalDigit(d[|d| - 1]);
      DecimalValue(d[..|d| - 1]) * 10 + ((d[|d| - 1] as int) - ('0' as int))
  }

  /** The decimal spelling of `n`, without leading zeros. */
  function DecimalString(n: nat): (s: string)
    ensures |s| >= 1
    ensures forall i :: 0 <= i < |s| ==> IsDecimalDigit(s[i])
  {
    var last := [(('0' as int) + n % 10) as char];
    if n < 10 then last else DecimalString(n / 10) + last
  }

  /** JavaScript `toLowerCase` on the ASCII letters. */
  function ToLowerAscii(s: string): (t: string)
    ensures |t| == |s|
    ensures forall i :: 0 <= i < |s| ==> if 'A' <= s[i] <= 'Z' then t[i] == ((s[i] as int) + 32) as char else t[i] == s[i]
  {
    seq(|s|, i requires 0 <= i < |s| => if 'A' <= s[i] <= 'Z' then ((s[i] as int) + 32) as char else s[i])
  }

  /** Decoding the hex spelling of some bytes gives the bytes back. */
  lemma {:induction false} DecodeHexDigitsRoundTrip(b: seq<Byte>)
    ensures DecodeHexDigits(HexDigits(b)) == b
  {
    if |b| > 0 {
      var d := HexDigits(b);
      assert d[2..] == HexDigits(b[1..]);
      DecodeHexDigitsRoundTrip(b[1..]);
      assert b[0] == (b[0] / 16) * 16 + b[0] % 16;
    }
  }

  /** The spelling of a prefix is the prefix of the spelling. */
  lemma {:induction false} HexDigitsPrefix(b: seq<Byte>, k: nat)
    requires k <= |b|
    ensures HexDigits(b)[..2 * k] == HexDigits(b[..k])
  {
    if k > 0 {
      HexDigitsPrefix(b[1..], k - 1);
      assert b[..k][1..] == b[1..][..k - 1];
    }
  }

  /** `toLowerCase` leaves a `ToHex` string unchanged. */
  lemma ToHexIsLowerCase(b: seq<Byte>)
    ensures ToLowerAscii(ToHex(b)) == ToHex(b)
  {
    var s := ToHex(b);
    assert forall i :: 2 <= i < |s| ==> s[i] == HexDigits(b)[i - 2];
  }
}

=== FILE: js.dfy ===
/** The JavaScript values the co-signer passes to its libraries, the errors
    those libraries throw, and the two built-ins it relies on. */
module Js {

  /** The errors thrown along the signing path.  Each names the check of the
      library that throws it. */
  datatype Error =
    | CountMismatch          // `defaultAbiCoder.encode`: types and values differ in number
    | InvalidBigNumber       // `BigNumber.from`: not a number, BigNumber or numeric string
    | NumericOverflow        // `BigNumber.from`: a JS number outside the safe-integer range
    | NumericUnderflow       // `BigNumber.from`: a JS number with a fractional part
    | ValueOutOfBounds       // ABI number coder: outside the range of the uintN slot
    | InvalidArrayify        // `arrayify`: not a hex string, safe unsigned integer or byte array
    | UndefinedProperty      // a `TypeError`: the library reads a property of `undefined`
    | OddLengthHex           // `arrayify` / `hexlify`: odd number of hex digits
    | InvalidAddress         // `getAddress`: not a 40-hex-digit string
    | BadAddressChecksum     // `getAddress`: mixed case that is not the EIP-55 checksum
    | InvalidHexData         // `hexDataSlice` / `hexlify`: not an even-length hex string
    | InvalidPrivateKey      // `ecsign`: the key is not a valid secp256k1 scalar

  /** A value or the error thrown while computing it. */
  datatype Result<+T> = Ok(value: T) | Err(error: Error) {
    predicate IsFailure() {
      Err?
    }

    function PropagateFailure<U>(): Result<U>
      requires Err?
    {
      Err(error)
    }

    function Extract(): T
      requires Ok?
    {
      value
    }
  }

  datatype Option<+T> = None | Some(value: T)

  /** ethers' `MAX_SAFE`, 2^53 - 1 (JavaScript's `Number.MAX_SAFE_INTEGER`). */
  const MAX_SAFE: int := 0x1f_ffff_ffff_ffff

  /** A real number with a non-zero fractional part. */
  type NonInteger = x: real | x.Floor as real != x witness 0.5

  /** A JavaScript value as the source hands it over.  A JS number is an
      integer (`Num`) or has a fractional part (`Frac`). */
  datatype Value =
    | Undefined
    | Num(n: int)                // a JS number with an integer value
    | Frac(x: NonInteger)        // a JS number with a fractional part
    | Big(n: int)                // an ethers BigNumber
    | Str(s: string)             // a JS string
    | Record(op: UserOperation)  // a plain object shaped like a user operation

  /** The ERC-4337 user operation, field order as in `UserOperationStruct`. */
  datatype UserOperation = UserOperation(
    sender: Value,
    nonce: Value,
    initCode: Value,
    callData: Value,
    callGasLimit: Value,
    verificationGasLimit: Value,
    preVerificationGas: Value,
    maxFeePerGas: Value,
    maxPriorityFeePerGas: Value,
    paymasterAndData: Value,
    signature: Value
  )

  /** `list.indexOf(x)` on an array of strings: strict equality, so only a
      string equal character for character is found. */
  function IndexOf(list: seq<string>, x: Value): (r: int)
    ensures -1 <= r < |list|
    ensures r == -1 <==> !(x.Str? && x.s in list)
    ensures r >= 0 ==> x == Str(list[r]) && forall j :: 0 <= j < r ==> Str(list[j]) != x
  {
    if |list| == 0 then -1
    else if x == Str(list[0]) then 0
    else
      var rest := IndexOf(list[1..], x);
      assert x.Str? && x.s in list[1..] ==> x.s in list;
      assert x.Str? && x.s in list ==> x.s == list[0] || x.s in list[1..];
      if rest == -1 then -1 else rest + 1
  }

  /** `s.substring(start, end)`: both bounds clamped to the string, swapped
      when `start > end`. */
  function Substring(s: string, start: int, end: int): (r: string)
    ensures 0 <= start <= end <= |s| ==> r == s[start..end]
    ensures 0 <= end <= start <= |s| ==> r == s[end..start]
    ensures |r| <= |s|
  {
    var a := if start < 0 then 0 else if start > |s| then |s| else start;
    var b := if end < 0 then 0 else if end > |s| then |s| else end;
    if a <= b then s[a..b] else s[b..a]
  }
}

=== FILE: paymaster.dfy ===
/** `AllowlistPaymaster.getPaymasterAndData` of `index.ts`: the off-chain half
    of a verifying paymaster, which co-signs the user operations of
    allow-listed senders and hands back the `paymasterAndData` blob
    `(address paymaster, uint48 validUntil, uint48 validAfter, bytes signature)`.

    The signer's key, the clock and the cryptographic primitives are
    parameters: `signerKey` is what `process.env.SIGNER_KEY` yields through
    `PrivateKeyWallet`, and `nowMs` is `Date.now()`, the clock in whole milliseconds. */
module Paymaster {
  import opened Words
  import opened Hex
  import opened Js
  import opened Ethers
  import opened Abi
  import opened Primitives
  import opened AaUtils

  /** The ERC-4337 EntryPoint contract, all lower case. */
  const ENTRYPOINT: string := "0x5ff137d4b0fdcd49dca30c7cf57e578a026d2789"

  /** The paymaster contract, in mixed (checksummed) case. */
  const ALLOWLIST_PAYMASTER_ADDRESS: string := "0x34A00151460C7Bec401D3b24fE86E9C152EE8284"

  /** The module-level list of senders the paymaster sponsors. */
  const ALLOW_LIST: seq<string> := ["0xdA82D492a49d08cF732A47Acf34efb51BE351dd6"]

  /** Celo Alfajores. */
  const CHAIN_ID: int := 44787

  /** How long a sponsorship stays valid: ten minutes. */
  const VALIDITY_SECONDS: int := 10 * 60

  /** The ABI schema of `paymasterAndData`'s signed part. */
  const SPONSORSHIP_TYPES: seq<AbiType> := [TAddress, TUint48, TUint48, TBytes]

  /** The paymaster object; its constructor only stores the list. */
  datatype AllowlistPaymaster = AllowlistPaymaster(allowlist: seq<string>)

  /** `Date.now() / 1000 + 10 * 60`: JavaScript's `/` divides exactly, so the
      number is whole only when the clock is on a whole second; otherwise it
      has a fractional part. */
  function ValidUntil(nowMs: int): (v: Value)
    ensures v.Num? || v.Frac?
    ensures v.Num? <==> nowMs % 1000 == 0
    ensures (if v.Num? then v.n as real else v.x) == nowMs as real / 1000.0 + VALIDITY_SECONDS as real
  {
    if nowMs % 1000 == 0 then
      Num(nowMs / 1000 + VALIDITY_SECONDS)
    else
      OffSecondQuotient(nowMs);
      Frac(nowMs as real / 1000.0 + VALIDITY_SECONDS as real)
  }

  /** Off a whole second, the quotient lies strictly between two integers. */
  lemma OffSecondQuotient(nowMs: int)
    requires nowMs % 1000 != 0
    ensures var x := nowMs as real / 1000.0 + VALIDITY_SECONDS as real;
            && (nowMs / 1000 + VALIDITY_SECONDS) as real < x < (nowMs / 1000 + VALIDITY_SECONDS + 1) as real
            && x.Floor as real != x
  {
    var q, m := nowMs / 1000, nowMs % 1000;
    assert nowMs == 1000 * q + m;
    assert nowMs as real == 1000.0 * q as real + m as real;
    assert nowMs as real / 1000.0 == q as real + m as real / 1000.0;
  }

  /** The validUntil the signing evidently needs: the clock rounded down to
      whole seconds, plus the validity window. */
  function WholeSecondValidUntil(nowMs: int): Value {
    Num(nowMs / 1000 + VALIDITY_SECONDS)
  }

  /** It is the number of whole seconds the clock has passed, plus the
      window, and it agrees with `Date.now() / 1000 + 600` whenever that is
      whole. */
  lemma WholeSecondRoundsDown(nowMs: int)
    ensures var v := WholeSecondValidUntil(nowMs);
            && v.Num?
            && (v.n - VALIDITY_SECONDS) * 1000 <= nowMs < (v.n - VALIDITY_SECONDS + 1) * 1000
            && (nowMs % 1000 == 0 <==> v == ValidUntil(nowMs))
  {
  }

  /** A sender the given list names, spelled exactly as there. */
  predicate Listed(list: seq<string>, sender: Value) {
    sender.Str? && sender.s in list
  }

  /** `getPaymasterAndData(userOp)` as the source writes it: it consults the
      module-level list, passes `ENTRYPOINT`, `44787` and `0` into
      `signUserOp`'s chainId, paymasterAddress and senderNonce places, and
      puts the whole signed operation into the `bytes` slot. */
  function GetPaymasterAndData(self: AllowlistPaymaster, prims: Primitives, userOp: UserOperation,
                               signerKey: Value, nowMs: int): (r: Result<string>)
    ensures !Listed(ALLOW_LIST, userOp.sender) ==> r == Ok("")
  {
    if IndexOf(ALLOW_LIST, userOp.sender) != -1 then
      var validUntil := ValidUntil(nowMs);
      var signature :- SignUserOp(prims, userOp, signerKey, Str(ENTRYPOINT), Num(CHAIN_ID), Num(0), validUntil, Num(0));
      SponsorshipPayload(prims.keccak, validUntil, Record(signature))
    else
      Ok("")
  }

  /** What the call was evidently meant to do: consult the instance's own
      list, sign for chain 44787 and the paymaster contract, and put the
      signed operation's `signature` into the `bytes` slot. */
  function GetPaymasterAndDataCorrected(self: AllowlistPaymaster, prims: Primitives, userOp: UserOperation,
                                        signerKey: Value, nowMs: int): (r: Result<string>)
    ensures !Listed(self.allowlist, userOp.sender) ==> r == Ok("")
  {
    if IndexOf(self.allowlist, userOp.sender) != -1 then
      var validUntil := WholeSecondValidUntil(nowMs);
      var signed :- IntendedSigning(prims, userOp, signerKey, nowMs);
      SponsorshipPayload(prims.keccak, validUntil, signed.signature)
    else
      Ok("")
  }

  /** The `signUserOp` call the paymaster evidently meant to make: chain
      44787, the paymaster contract, sender nonce 0, validAfter 0, and a
      validUntil in whole seconds. */
  function IntendedSigning(prims: Primitives, userOp: UserOperation, signerKey: Value, nowMs: int)
    : Result<UserOperation>
  {
    SignUserOp(prims, userOp, signerKey, Num(CHAIN_ID), Str(ALLOWLIST_PAYMASTER_ADDRESS),
               Num(0), WholeSecondValidUntil(nowMs), Num(0))
  }

  /** The same call with only the argument order repaired: validUntil is
      still the exact quotient `Date.now() / 1000 + 600`. */
  function ArgumentFixedSigning(prims: Primitives, userOp: UserOperation, signerKey: Value, nowMs: int)
    : Result<UserOperation>
  {
    SignUserOp(prims, userOp, signerKey, Num(CHAIN_ID), Str(ALLOWLIST_PAYMASTER_ADDRESS),
               Num(0), ValidUntil(nowMs), Num(0))
  }

  /** `defaultAbiCoder.encode(["address", "uint48", "uint48", "bytes"],
      [ALLOWLIST_PAYMASTER_ADDRESS, validUntil, 0, signature])`. */
  function SponsorshipPayload(keccak: Keccak, validUntil: Value, signature: Value): (r: Result<string>)
    ensures r.Ok? <==> && Coerce(keccak, TAddress, Str(ALLOWLIST_PAYMASTER_ADDRESS)).Ok?
                       && Coerce(keccak, TUint48, validUntil).Ok?
                       && Coerce(keccak, TBytes, signature).Ok?
    ensures r.Ok? ==> IsHexString(r.value)
  {
    SponsorshipAccepted(keccak, validUntil, signature);
    Encode(keccak, SPONSORSHIP_TYPES, [Str(ALLOWLIST_PAYMASTER_ADDRESS), validUntil, Num(0), signature])
  }

  /** The coder accepts the sponsorship tuple exactly when it accepts the
      paymaster address, validUntil and the signature: validAfter 0 always
      fits. */
  lemma SponsorshipAccepted(keccak: Keccak, validUntil: Value, signature: Value)
    ensures Encode(keccak, SPONSORSHIP_TYPES, [Str(ALLOWLIST_PAYMASTER_ADDRESS), validUntil, Num(0), signature]).Ok?
            <==> && Coerce(keccak, TAddress, Str(ALLOWLIST_PAYMASTER_ADDRESS)).Ok?
                 && Coerce(keccak, TUint48, validUntil).Ok?
                 && Coerce(keccak, TBytes, signature).Ok?
  {
    var xs := [Str(ALLOWLIST_PAYMASTER_ADDRESS), validUntil, Num(0), signature];
    assert Coerce(keccak, SPONSORSHIP_TYPES[2], xs[2]).Ok?;
    if Encode(keccak, SPONSORSHIP_TYPES, xs).Ok? {
      assert Coerce(keccak, SPONSORSHIP_TYPES[0], xs[0]).Ok?;
      assert Coerce(keccak, SPONSORSHIP_TYPES[1], xs[1]).Ok?;
      assert Coerce(keccak, SPONSORSHIP_TYPES[3], xs[3]).Ok?;
    }
    if && Coerce(keccak, TAddress, Str(ALLOWLIST_PAYMASTER_ADDRESS)).Ok?
       && Coerce(keccak, TUint48, validUntil).Ok?
       && Coerce(keccak, TBytes, signature).Ok? {
      forall i | 0 <= i < 4 ensures Coerce(keccak, SPONSORSHIP_TYPES[i], xs[i]).Ok? {
        if i == 0 {
        } else if i == 1 {
        } else if i == 2 {
        } else {
          assert i == 3;
        }
      }
    }
  }

  /** The decoded sponsorship: paymaster, validUntil, validAfter 0, signature. */
  function SponsorshipTuple(paymaster: nat, validUntil: nat, signature: seq<Byte>): (vs: seq<AbiValue>)
    ensures |vs| == |SPONSORSHIP_TYPES|
  {
    [AddressValue(paymaster), UintValue(validUntil), UintValue(0), BytesValue(signature)]
  }

  // ---------------------------------------------------------------------
  // The code as written

  /** Allow-list membership is exact string equality: of all the letter-case
      spellings of the listed sender, only the listed one is treated as
      listed; every other spelling of the same address gets "". */
  lemma MembershipIsExact(self: AllowlistPaymaster, prims: Primitives, userOp: UserOperation,
                          signerKey: Value, nowMs: int, s: string)
    requires userOp.sender == Str(s)
    requires ToLowerAscii(s) == ToLowerAscii(ALLOW_LIST[0])
    ensures GetPaymasterAndData(self, prims, userOp, signerKey, nowMs) == Ok("") <==> s != ALLOW_LIST[0]
  {
    AllowListedAlwaysFails(self, prims, userOp, signerKey, nowMs);
  }

  /** The answer does not depend on the list the paymaster was built with. */
  lemma IgnoresOwnAllowlist(self: AllowlistPaymaster, other: AllowlistPaymaster, prims: Primitives,
                            userOp: UserOperation, signerKey: Value, nowMs: int)
    ensures GetPaymasterAndData(self, prims, userOp, signerKey, nowMs)
            == GetPaymasterAndData(other, prims, userOp, signerKey, nowMs)
  {
  }

  /** With `44787` in the paymasterAddress place, `getAddress` refuses a
      number, so the signing context is never accepted. */
  lemma CallSiteContextRejected(keccak: Keccak, nowMs: int)
    ensures Coerce(keccak, TAddress, Num(CHAIN_ID)) == Err(InvalidAddress)
    ensures !ContextAccepted(keccak, Str(ENTRYPOINT), Num(CHAIN_ID), Num(0), ValidUntil(nowMs), Num(0))
  {
  }

  /** Hence no allow-listed sender is ever sponsored: signing throws before
      any payload is built, and the only successful answer is "". */
  lemma AllowListedAlwaysFails(self: AllowlistPaymaster, prims: Primitives, userOp: UserOperation,
                               signerKey: Value, nowMs: int)
    ensures Listed(ALLOW_LIST, userOp.sender) ==> GetPaymasterAndData(self, prims, userOp, signerKey, nowMs).Err?
    ensures GetPaymasterAndData(self, prims, userOp, signerKey, nowMs).Ok?
            <==> !Listed(ALLOW_LIST, userOp.sender)
    ensures GetPaymasterAndData(self, prims, userOp, signerKey, nowMs).Ok?
            ==> GetPaymasterAndData(self, prims, userOp, signerKey, nowMs).value == ""
  {
    if Listed(ALLOW_LIST, userOp.sender) {
      CallSiteContextRejected(prims.keccak, nowMs);
      if FieldsAccepted(prims.keccak, userOp) {
        GetUserOpHashRejectsContext(prims, userOp, Str(ENTRYPOINT), Num(CHAIN_ID), Num(0), ValidUntil(nowMs), Num(0));
      } else {
        GetUserOpHashRejects(prims, userOp, Str(ENTRYPOINT), Num(CHAIN_ID), Num(0), ValidUntil(nowMs), Num(0));
      }
    }
  }

  /** Even a successful signing would not help: the coder refuses the signed
      operation object in the `bytes` slot, since `arrayify` accepts no
      plain object. */
  lemma RecordSignatureRejected(keccak: Keccak, paymaster: Value, validUntil: Value, validAfter: Value,
                                signed: UserOperation)
    requires Coerce(keccak, TAddress, paymaster).Ok?
    requires Coerce(keccak, TUint48, validUntil).Ok? && Coerce(keccak, TUint48, validAfter).Ok?
    ensures Encode(keccak, SPONSORSHIP_TYPES, [paymaster, validUntil, validAfter, Record(signed)])
            == Err(InvalidArrayify)
  {
    var xs := [paymaster, validUntil, validAfter, Record(signed)];
    var r := CoerceAll(keccak, SPONSORSHIP_TYPES, xs);
    assert Coerce(keccak, SPONSORSHIP_TYPES[0], xs[0]).Ok?;
    assert Coerce(keccak, SPONSORSHIP_TYPES[1], xs[1]).Ok?;
    assert Coerce(keccak, SPONSORSHIP_TYPES[2], xs[2]).Ok?;
    assert Coerce(keccak, SPONSORSHIP_TYPES[3], xs[3]) == Err(InvalidArrayify);
    var i :| 0 <= i < 4 && Coerce(keccak, SPONSORSHIP_TYPES[i], xs[i]) == Err(r.error);
    assert i == 3;
  }

  /** Repairing the arguments alone is not enough: off a whole second,
      `BigNumber.from` refuses the fractional validUntil, so the signing
      succeeds only on a clock reading that is a whole second. */
  lemma FractionalValidUntilRejected(prims: Primitives, userOp: UserOperation, signerKey: Value, nowMs: int)
    ensures nowMs % 1000 != 0 ==> Coerce(prims.keccak, TUint48, ValidUntil(nowMs)) == Err(NumericUnderflow)
    ensures ArgumentFixedSigning(prims, userOp, signerKey, nowMs).Ok? ==> nowMs % 1000 == 0
  {
    CoerceUint(prims.keccak, TUint48, ValidUntil(nowMs));
    if ArgumentFixedSigning(prims, userOp, signerKey, nowMs).Ok? {
      GetUserOpHashAcceptsContext(prims, userOp, Num(CHAIN_ID), Str(ALLOWLIST_PAYMASTER_ADDRESS),
                                  Num(0), ValidUntil(nowMs), Num(0));
    }
  }

  // ---------------------------------------------------------------------
  // The corrected call

  /** The whole-second validUntil is accepted whenever it fits 48 bits, as
      that number of seconds. */
  lemma WholeSecondValidUntilAccepted(keccak: Keccak, nowMs: int)
    ensures Coerce(keccak, TUint48, WholeSecondValidUntil(nowMs)).Ok?
            <==> 0 <= nowMs / 1000 + VALIDITY_SECONDS < UINT48_LIMIT
    ensures Coerce(keccak, TUint48, WholeSecondValidUntil(nowMs)).Ok?
            ==> Coerce(keccak, TUint48, WholeSecondValidUntil(nowMs)).value == UintValue(nowMs / 1000 + VALIDITY_SECONDS)
  {
    CoerceUint(keccak, TUint48, WholeSecondValidUntil(nowMs));
  }


  /** The coder accepts a sponsorship whose address it accepts, whose
      validUntil fits 48 bits and whose signature is a hex string, and encodes
      the tuple above. */
  lemma SponsorshipEncoded(keccak: Keccak, paymaster: Value, validUntil: nat, signature: seq<Byte>)
    requires Coerce(keccak, TAddress, paymaster).Ok?
    requires validUntil < UINT48_LIMIT
    ensures Encode(keccak, SPONSORSHIP_TYPES, [paymaster, Num(validUntil), Num(0), Str(ToHex(signature))])
            == Ok(ToHex(Layout(SponsorshipTuple(Coerce(keccak, TAddress, paymaster).value.addr,
                                                validUntil, signature))))
    ensures paymaster == Str(ALLOWLIST_PAYMASTER_ADDRESS) ==>
              SponsorshipPayload(keccak, Num(validUntil), Str(ToHex(signature)))
              == Ok(ToHex(Layout(SponsorshipTuple(Coerce(keccak, TAddress, paymaster).value.addr,
                                                  validUntil, signature))))
  {
    var xs := [paymaster, Num(validUntil), Num(0), Str(ToHex(signature))];
    var vs := SponsorshipTuple(Coerce(keccak, TAddress, paymaster).value.addr, validUntil, signature);
    CoerceHexBytes(keccak, signature);
    assert Coerce(keccak, SPONSORSHIP_TYPES[0], xs[0]) == Ok(vs[0]);
    assert Coerce(keccak, SPONSORSHIP_TYPES[1], xs[1]) == Ok(vs[1]);
    assert Coerce(keccak, SPONSORSHIP_TYPES[2], xs[2]) == Ok(vs[2]);
    assert Coerce(keccak, SPONSORSHIP_TYPES[3], xs[3]) == Ok(vs[3]);
    CoerceAllAccepted(keccak, SPONSORSHIP_TYPES, xs, vs);
  }

  /** A sponsorship with a 65-byte signature encodes to 256 bytes: four head
      slots, then the signature's length word and three data words. */
  lemma SponsorshipLength(paymaster: nat, validUntil: nat, signature: seq<Byte>)
    requires |signature| == 65
    ensures |Layout(SponsorshipTuple(paymaster, validUntil, signature))| == 256
  {
    var vs := SponsorshipTuple(paymaster, validUntil, signature);
    assert vs == vs[..3] + [vs[3]];
    TailsOfStatic(vs[..3]);
    TailsAppend(vs[..3], [vs[3]]);
    assert Tails([vs[3]]) == Tail(vs[3]) + Tails([]);
  }

  /** The sponsorship keeps the tuple layout of the call, not the layout of
      `DUMMY_PND` (address, validUntil word, validAfter word and signature
      back to back) that `packUserOp`'s cut of 320 bytes is sized for: with a
      65-byte signature it is 256 bytes where the dummy is 149, so its
      `bytes` tail in a packed operation is 288 bytes where the dummy's is
      192. */
  lemma SponsorshipLayoutDiffersFromDummy(paymaster: nat, validUntil: nat, signature: seq<Byte>)
    requires |signature| == 65
    ensures |Layout(SponsorshipTuple(paymaster, validUntil, signature))| == 256
    ensures |DUMMY_PND_BYTES| == 149
    ensures TailSize(|Layout(SponsorshipTuple(paymaster, validUntil, signature))|) == 288
    ensures TailSize(|DUMMY_PND_BYTES|) == 192
  {
    SponsorshipLength(paymaster, validUntil, signature);
  }

  /** Each field of the sponsorship decodes from its slot. */
  lemma SponsorshipDecodes(paymaster: nat, validUntil: nat, signature: seq<Byte>, i: nat)
    requires paymaster < ADDRESS_LIMIT && validUntil < UINT48_LIMIT && |signature| == 65 && i < 4
    ensures DecodeAt(SPONSORSHIP_TYPES[i], Layout(SponsorshipTuple(paymaster, validUntil, signature)), i)
            == Some(SponsorshipTuple(paymaster, validUntil, signature)[i])
  {
    SponsorshipLength(paymaster, validUntil, signature);
    Pow256Limits();
    DecodeLayout(SPONSORSHIP_TYPES[i], SponsorshipTuple(paymaster, validUntil, signature), i);
  }

  /** For a listed sender whose operation it can sign, the corrected call
      encodes the sponsorship around the signed operation's signature. */
  lemma CorrectedSigns(self: AllowlistPaymaster, prims: Primitives, userOp: UserOperation,
                       signerKey: Value, nowMs: int)
    requires Listed(self.allowlist, userOp.sender)
    requires IntendedSigning(prims, userOp, signerKey, nowMs).Ok?
    ensures GetPaymasterAndDataCorrected(self, prims, userOp, signerKey, nowMs)
            == SponsorshipPayload(prims.keccak, WholeSecondValidUntil(nowMs),
                 IntendedSigning(prims, userOp, signerKey, nowMs).value.signature)
  {
    assert IndexOf(self.allowlist, userOp.sender) != -1;
  }

  /** A signing that succeeds had its context accepted: the paymaster
      address passes `getAddress` and the whole-second validUntil fits 48
      bits. */
  lemma IntendedContextAccepted(prims: Primitives, userOp: UserOperation, signerKey: Value, nowMs: int)
    requires IntendedSigning(prims, userOp, signerKey, nowMs).Ok?
    ensures Coerce(prims.keccak, TAddress, Str(ALLOWLIST_PAYMASTER_ADDRESS)).Ok?
    ensures 0 <= WholeSecondValidUntil(nowMs).n < UINT48_LIMIT
  {
    GetUserOpHashAcceptsContext(prims, userOp, Num(CHAIN_ID), Str(ALLOWLIST_PAYMASTER_ADDRESS),
                                Num(0), WholeSecondValidUntil(nowMs), Num(0));
  }

  /** The corrected call, for a listed sender whose operation it can sign,
      returns the encoding of (paymaster, the whole-second validUntil, 0, the
      65-byte RPC signature `signUserOp` produced). */
  lemma CorrectedPayload(self: AllowlistPaymaster, prims: Primitives, userOp: UserOperation,
                         signerKey: Value, nowMs: int)
    requires Listed(self.allowlist, userOp.sender)
    requires IntendedSigning(prims, userOp, signerKey, nowMs).Ok?
    ensures Coerce(prims.keccak, TAddress, Str(ALLOWLIST_PAYMASTER_ADDRESS)).Ok?
    ensures 0 <= WholeSecondValidUntil(nowMs).n < UINT48_LIMIT
    ensures var signed := IntendedSigning(prims, userOp, signerKey, nowMs).value;
            && Arrayify(signed.signature).Ok?
            && GetPaymasterAndDataCorrected(self, prims, userOp, signerKey, nowMs)
               == Ok(ToHex(Layout(SponsorshipTuple(
                    Coerce(prims.keccak, TAddress, Str(ALLOWLIST_PAYMASTER_ADDRESS)).value.addr,
                    WholeSecondValidUntil(nowMs).n, Arrayify(signed.signature).value))))
  {
    IntendedContextAccepted(prims, userOp, signerKey, nowMs);
    CorrectedSigns(self, prims, userOp, signerKey, nowMs);
    var signed := IntendedSigning(prims, userOp, signerKey, nowMs).value;
    SignUserOpSignatureBytes(prims, userOp, signerKey, Num(CHAIN_ID), Str(ALLOWLIST_PAYMASTER_ADDRESS),
                             Num(0), WholeSecondValidUntil(nowMs), Num(0));
    SponsorshipEncoded(prims.keccak, Str(ALLOWLIST_PAYMASTER_ADDRESS), WholeSecondValidUntil(nowMs).n,
                       Arrayify(signed.signature).value);
  }

  /** A sponsorship survives the round trip through its hex encoding and
      Solidity's `abi.decode` of the same four types, field by field. */
  lemma SponsorshipRoundTrip(paymaster: nat, validUntil: nat, signature: seq<Byte>)
    requires paymaster < ADDRESS_LIMIT && validUntil < UINT48_LIMIT && |signature| == 65
    ensures var e := Layout(SponsorshipTuple(paymaster, validUntil, signature));
            && Arrayify(Str(ToHex(e))) == Ok(e)
            && |e| == 256
            && DecodeAt(TAddress, e, 0) == Some(AddressValue(paymaster))
            && DecodeAt(TUint48, e, 1) == Some(UintValue(validUntil))
            && DecodeAt(TUint48, e, 2) == Some(UintValue(0))
            && DecodeAt(TBytes, e, 3) == Some(BytesValue(signature))
  {
    ArrayifyToHex(Layout(SponsorshipTuple(paymaster, validUntil, signature)));
    SponsorshipLength(paymaster, validUntil, signature);
    SponsorshipDecodes(paymaster, validUntil, signature, 0);
    SponsorshipDecodes(paymaster, validUntil, signature, 1);
    SponsorshipDecodes(paymaster, validUntil, signature, 2);
    SponsorshipDecodes(paymaster, validUntil, signature, 3);
  }

  /** Reading the corrected answer back with Solidity's `abi.decode` of the
      same four types gives the paymaster address, the whole-second validUntil,
      validAfter = 0 and the 65-byte signature `signUserOp` produced. */
  lemma CorrectedPayloadDecodes(self: AllowlistPaymaster, prims: Primitives, userOp: UserOperation,
                                signerKey: Value, nowMs: int)
    requires Listed(self.allowlist, userOp.sender)
    requires IntendedSigning(prims, userOp, signerKey, nowMs).Ok?
    ensures Coerce(prims.keccak, TAddress, Str(ALLOWLIST_PAYMASTER_ADDRESS)).Ok?
    ensures 0 <= WholeSecondValidUntil(nowMs).n < UINT48_LIMIT
    ensures var r := GetPaymasterAndDataCorrected(self, prims, userOp, signerKey, nowMs);
            var signed := IntendedSigning(prims, userOp, signerKey, nowMs).value;
            && r.Ok? && Arrayify(Str(r.value)).Ok? && Arrayify(signed.signature).Ok?
            && |Arrayify(Str(r.value)).value| == 256
            && DecodeAt(TAddress, Arrayify(Str(r.value)).value, 0)
               == Some(Coerce(prims.keccak, TAddress, Str(ALLOWLIST_PAYMASTER_ADDRESS)).value)
            && DecodeAt(TUint48, Arrayify(Str(r.value)).value, 1) == Some(UintValue(WholeSecondValidUntil(nowMs).n))
            && DecodeAt(TUint48, Arrayify(Str(r.value)).value, 2) == Some(UintValue(0))
            && DecodeAt(TBytes, Arrayify(Str(r.value)).value, 3) == Some(BytesValue(Arrayify(signed.signature).value))
  {
    CorrectedPayload(self, prims, userOp, signerKey, nowMs);
    SignUserOpSignatureBytes(prims, userOp, signerKey, Num(CHAIN_ID), Str(ALLOWLIST_PAYMASTER_ADDRESS),
                             Num(0), WholeSecondValidUntil(nowMs), Num(0));
    var signed := IntendedSigning(prims, userOp, signerKey, nowMs).value;
    var a := Coerce(prims.keccak, TAddress, Str(ALLOWLIST_PAYMASTER_ADDRESS)).value;
    assert Fits(TAddress, a);
    var validUntil: nat := WholeSecondValidUntil(nowMs).n;
    var sig := Arrayify(signed.signature).value;
    var e := Layout(SponsorshipTuple(a.addr, validUntil, sig));
    assert GetPaymasterAndDataCorrected(self, prims, userOp, signerKey, nowMs) == Ok(ToHex(e));
    SponsorshipRoundTrip(a.addr, validUntil, sig);
    assert Arrayify(Str(ToHex(e))) == Ok(e);
  }
}

=== FILE: primitives.dfy ===
/** The cryptographic library calls of the co-signer, left uninterpreted:
    each is a parameter of the model rather than a definition. */
module Primitives {
  import opened Words

  /** The (v, r, s) triple `ecsign` returns. */
  datatype EcSignature = EcSignature(v: nat, r: Bytes32, s: Bytes32)

  datatype Primitives = Primitives(
    /** Keccak-256. */
    keccak: seq<Byte> -> Bytes32,
    /** Whether `ecsign` accepts a private key (a valid secp256k1 scalar). */
    keyIsValid: seq<Byte> -> bool,
    /** secp256k1 ECDSA signature of a 32-byte hash with a private key. */
    ecsign: (Bytes32, seq<Byte>) -> EcSignature,
    /** `toRpcSig`: r ‖ s ‖ v. */
    toRpcSig: EcSignature -> Bytes65
  )
}

=== FILE: words.dfy ===
/** Bytes, 32-byte words and big-endian integers: the raw material of the
    Solidity ABI encoding used by the paymaster co-signer. */
module Words {

  /** One octet. */
  type Byte = b: int | 0 <= b < 256

  /** A Keccak-256 digest or an ECDSA scalar. */
  type Bytes32 = b: seq<Byte> | |b| == 32 witness seq(32, i => 0)

  /** An RPC-form signature r ‖ s ‖ v. */
  type Bytes65 = b: seq<Byte> | |b| == 65 witness seq(65, i => 0)


  /** 2^256, the first value a uint256 slot cannot hold. */
  const UINT256_LIMIT: nat := 0x1_0000_0000_0000_0000_0000_0000_0000_0000_0000_0000_0000_0000_0000_0000_0000_0000

  /** 2^160, the first value an address slot cannot hold. */
  const ADDRESS_LIMIT: nat := 0x1_0000_0000_0000_0000_0000_0000_0000_0000_0000_0000

  /** 2^48, the first value a uint48 slot cannot hold. */
  const UINT48_LIMIT: nat := 0x1_0000_0000_0000

  function Pow256(n: nat): (r: nat)
    ensures r >= 1
  {
    if n == 0 then 1 else 256 * Pow256(n - 1)
  }

  /** `n` copies of the byte `b`. */
  function Repeat(b: Byte, n: nat): (r: seq<Byte>)
    ensures |r| == n
    ensures forall i :: 0 <= i < n ==> r[i] == b
  {
    seq(n, i => b)
  }

  function Zeros(n: nat): (r: seq<Byte>)
    ensures |r| == n
    ensures forall i :: 0 <= i < n ==> r[i] == 0
  {
    Repeat(0, n)
  }

  /** Number of zero bytes that bring a length of `n` up to a multiple of 32. */
  function PadLength(n: nat): (r: nat)
    ensures r < 32
    ensures (n + r) % 32 == 0
  {
    (32 - n % 32) % 32
  }

  /** The `len` low-order bytes of `n`, most significant first. */
  function ToBigEndian(n: nat, len: nat): (r: seq<Byte>)
    ensures |r| == len
  {
    if len == 0 then [] else ToBigEndian(n / 256, len - 1) + [n % 256]
  }

  /** The unsigned integer whose big-endian representation is `b`. */
  function FromBigEndian(b: seq<Byte>): nat {
    if |b| == 0 then 0 else FromBigEndian(b[..|b| - 1]) * 256 + b[|b| - 1]
  }

  /** `len` bytes hold a value below 256^len. */
  lemma {:induction false} FromBigEndianBelow(b: seq<Byte>)
    ensures FromBigEndian(b) < Pow256(|b|)
  {
    if |b| > 0 {
      FromBigEndianBelow(b[..|b| - 1]);
    }
  }

  /** Byte `k` of `n`, counting from the least significant. */
  function ByteAt(n: nat, k: nat): Byte {
    (n / Pow256(k)) % 256
  }

  /** A 32-byte ABI word holding `n` (reduced modulo 2^256 when it does not
      fit), written byte by byte so that it unfolds without recursion. */
  function Word(n: nat): (r: seq<Byte>)
    ensures |r| == 32
  {
    seq(32, i requires 0 <= i < 32 => ByteAt(n, 31 - i))
  }

  /** The shortest big-endian form of `n`, with at least one byte: the bytes
      ethers produces for a JavaScript number or a non-negative BigNumber. */
  function MinimalBigEndian(n: nat): (r: seq<Byte>)
    ensures 1 <= |r|
    ensures |r| == 1 || r[0] != 0
    ensures FromBigEndian(r) == n
  {
    if n < 256 then [n]
    else
      var prefix := MinimalBigEndian(n / 256);
      var r := prefix + [n % 256];
      assert r[..|r| - 1] == prefix;
      r
  }

  /** The literal limits are the powers of 256 they stand for. */
  lemma Pow256Limits()
    ensures Pow256(6) == UINT48_LIMIT
    ensures Pow256(20) == ADDRESS_LIMIT
    ensures Pow256(32) == UINT256_LIMIT
  {
  }

  /** Big-endian numbers of 6, 20 and 32 bytes fit uint48, an address and
      uint256. */
  lemma FromBigEndianBounds(b: seq<Byte>)
    ensures |b| == 6 ==> FromBigEndian(b) < UINT48_LIMIT
    ensures |b| == 20 ==> FromBigEndian(b) < ADDRESS_LIMIT
    ensures |b| == 32 ==> FromBigEndian(b) < UINT256_LIMIT
  {
    FromBigEndianBelow(b);
    Pow256Limits();
  }

  /** Reading back a value written in `len` bytes gives the value, when it fits. */
  lemma {:induction false} FromToBigEndian(n: nat, len: nat)
    requires n < Pow256(len)
    ensures FromBigEndian(ToBigEndian(n, len)) == n
  {
    if len > 0 {
      var r := ToBigEndian(n, len);
      assert r[..|r| - 1] == ToBigEndian(n / 256, len - 1);
      FromToBigEndian(n / 256, len - 1);
    }
  }

  /** Writing back the value read from `b` in `|b|` bytes gives `b`. */
  lemma {:induction false} ToFromBigEndian(b: seq<Byte>)
    ensures ToBigEndian(FromBigEndian(b), |b|) == b
  {
    if |b| > 0 {
      var init := b[..|b| - 1];
      ToFromBigEndian(init);
      assert b == init + [b[|b| - 1]];
    }
  }

  /** Division by `a` then by `b` is division by `a * b`. */
  lemma DivDiv(n: nat, a: nat, b: nat)
    requires a > 0 && b > 0
    ensures (n / a) / b == n / (a * b)
  {
    var q, r := n / a, n % a;
    var q2, r2 := q / b, q % b;
    assert n == a * q + r;
    assert q == b * q2 + r2;
    MulRegroup(a, b, q2, r2);
    assert n == (a * b) * q2 + (a * r2 + r);
    MulBelow(a, b, r2);
    DivUnique(n, a * b, q2, a * r2 + r);
  }

  lemma MulRegroup(a: int, b: int, q: int, r: int)
    ensures a * (b * q + r) == (a * b) * q + a * r
  {
  }

  /** `a * r` leaves room for a remainder below `a` under `a * b` when `r < b`. */
  lemma MulBelow(a: nat, b: nat, r: nat)
    requires a > 0 && r < b
    ensures a * r + a <= a * b
  {
    MulStep(a, r, b);
  }

  /** The quotient is the only `q` with a remainder in range. */
  lemma DivUnique(n: int, d: int, q: int, r: int)
    requires d > 0 && 0 <= r < d && n == d * q + r
    ensures n / d == q
  {
    var q0, r0 := n / d, n % d;
    assert n == d * q0 + r0;
    if q0 < q {
      MulStep(d, q0, q);
    } else if q0 > q {
      MulStep(d, q, q0);
    }
  }

  lemma MulStep(d: int, x: int, y: int)
    requires d > 0 && x < y
    ensures d * x + d <= d * y
  {
    var k: nat := y - x - 1;
    assert d * y == d * x + d + d * k;
    assert d * k >= 0;
  }

  /** Byte `i` of the `len`-byte big-endian form of `n`. */
  lemma {:induction false} ToBigEndianBytes(n: nat, len: nat, i: nat)
    requires i < len
    ensures ToBigEndian(n, len)[i] == ByteAt(n, len - 1 - i)
  {
    var r := ToBigEndian(n, len);
    assert r == ToBigEndian(n / 256, len - 1) + [n % 256];
    if i < len - 1 {
      ToBigEndianBytes(n / 256, len - 1, i);
      DivDiv(n, 256, Pow256(len - 2 - i));
    }
  }

  /** The word of `n` is its 32-byte big-endian form. */
  lemma WordIsBigEndian(n: nat)
    ensures Word(n) == ToBigEndian(n, 32)
  {
    forall i | 0 <= i < 32 ensures Word(n)[i] == ToBigEndian(n, 32)[i] {
      ToBigEndianBytes(n, 32, i);
    }
  }

  /** A uint256 survives the round trip through its 32-byte word. */
  lemma WordRoundTrip(n: nat)
    requires n < UINT256_LIMIT
    ensures FromBigEndian(Word(n)) == n
  {
    Pow256Limits();
    WordIsBigEndian(n);
    FromToBigEndian(n, 32);
  }

  /** The bytes of a string read as Latin-1 / ASCII: the low byte of each code
      unit.  Node's `Buffer.from(s, "ascii")` writes these, and so does ethers'
      `getChecksumAddress` when it stores each `charCodeAt(0)` in a
      `Uint8Array`. */
  function AsciiBytes(s: string): (r: seq<Byte>)
    ensures |r| == |s|
    ensures forall i :: 0 <= i < |s| && (s[i] as int) < 256 ==> r[i] == s[i] as int
  {
    seq(|s|, i requires 0 <= i < |s| => (s[i] as int) % 256)
  }

  /** A slice that lies in the left operand of a concatenation. */
  lemma SliceAppendLeft<T>(a: seq<T>, b: seq<T>, lo: nat, hi: nat)
    requires lo <= hi <= |a|
    ensures (a + b)[lo..hi] == a[lo..hi]
  {
  }

  /** A slice that lies in the right operand of a concatenation. */
  lemma SliceAppendRight<T>(a: seq<T>, b: seq<T>, lo: nat, hi: nat)
    requires |a| <= lo <= hi <= |a| + |b|
    ensures (a + b)[lo..hi] == b[lo - |a| .. hi - |a|]
  {
  }

  /** The piece `t` found where it was put, between `c + x` and `y`. */
  lemma SliceMiddle<T>(c: seq<T>, x: seq<T>, t: seq<T>, y: seq<T>)
    ensures (c + (x + t + y))[|c| + |x| .. |c| + |x| + |t|] == t
  {
    var s := c + (x + t + y);
    forall k | 0 <= k < |t| ensures s[|c| + |x| + k] == t[k] { }
  }

  /** A slice of a stretch of `s` that equals `t` is the same slice of `t`. */
  lemma SliceOfSlice<T>(s: seq<T>, o: nat, t: seq<T>, lo: nat, hi: nat)
    requires o + |t| <= |s| && s[o .. o + |t|] == t && lo <= hi <= |t|
    ensures s[o + lo .. o + hi] == t[lo..hi]
  {
    forall k | 0 <= k < hi - lo ensures s[o + lo .. o + hi][k] == t[lo..hi][k] {
      assert t[lo + k] == s[o .. o + |t|][lo + k];
    }
  }

  /** The pieces `ws` one after another. */
  function Concat<T>(ws: seq<seq<T>>): seq<T> {
    if |ws| == 0 then [] else ws[0] + Concat(ws[1..])
  }

  /** Every piece is one 32-byte word long. */
  predicate AllWords<T>(ws: seq<seq<T>>) {
    forall j :: 0 <= j < |ws| ==> |ws[j]| == 32
  }

  lemma {:induction false} ConcatWordsLength<T>(ws: seq<seq<T>>)
    requires AllWords(ws)
    ensures |Concat(ws)| == 32 * |ws|
  {
    if |ws| > 0 {
      assert AllWords(ws[1..]) by {
        forall j | 0 <= j < |ws| - 1 ensures |ws[1..][j]| == 32 {
          assert ws[1..][j] == ws[j + 1];
        }
      }
      ConcatWordsLength(ws[1..]);
    }
  }

  /** Word `i` of a concatenation of words is the `i`-th piece. */
  lemma {:induction false} ConcatWordsSlot<T>(ws: seq<seq<T>>, i: nat)
    requires AllWords(ws) && i < |ws|
    ensures |Concat(ws)| == 32 * |ws|
    ensures Concat(ws)[32 * i .. 32 * i + 32] == ws[i]
  {
    ConcatWordsLength(ws);
    var rest := ws[1..];
    assert AllWords(rest) by {
      forall j | 0 <= j < |rest| ensures |rest[j]| == 32 {
        assert rest[j] == ws[j + 1];
      }
    }
    ConcatWordsLength(rest);
    assert Concat(ws) == ws[0] + Concat(rest);
    if i == 0 {
      SliceAppendLeft(ws[0], Concat(rest), 0, 32);
    } else {
      ConcatWordsSlot(rest, i - 1);
      SliceAppendRight(ws[0], Concat(rest), 32 * i, 32 * i + 32);
      assert rest[i - 1] == ws[i];
    }
  }

  /** Six pieces concatenated, as one expression. */
  lemma ConcatSix<T>(a: seq<T>, b: seq<T>, c: seq<T>, d: seq<T>, e: seq<T>, f: seq<T>)
    ensures Concat([a, b, c, d, e, f]) == a + b + c + d + e + f
  {
    var ws := [a, b, c, d, e, f];
    assert ws[1..] == [b, c, d, e, f];
    assert ws[1..][1..] == [c, d, e, f];
    assert ws[1..][1..][1..] == [d, e, f];
    assert ws[1..][1..][1..][1..] == [e, f];
    assert ws[1..][1..][1..][1..][1..] == [f];
    assert Concat([f]) == f + Concat([]);
    assert Concat([e, f]) == e + f;
    assert Concat([d, e, f]) == d + (e + f);
    assert Concat([c, d, e, f]) == c + (d + (e + f));
    assert Concat([b, c, d, e, f]) == b + (c + (d + (e + f)));
  }

  /** The bytes of two strings one after the other. */
  lemma AsciiBytesAppend(s: string, t: string)
    ensures AsciiBytes(s + t) == AsciiBytes(s) + AsciiBytes(t)
  {
    var u := s + t;
    forall i | 0 <= i < |u| ensures AsciiBytes(u)[i] == (AsciiBytes(s) + AsciiBytes(t))[i] {
      if i < |s| { assert u[i] == s[i]; } else { assert u[i] == t[i - |s|]; }
    }
  }
}
